=== FILE: README.md ===
# go-web-crawler, modelled in Dafny

This project models the sequential logic of the go-web-crawler site mapper.
The crawler starts at `protocol://hostname` and fetches the entry page. It
sorts each page's start tags into anchors, links and scripts, keeping a tag
only when the first `href` (or `src`) it carries passes the URL filters;
further attributes with the same key are collected unchecked. Each page's references are
deduplicated, and every anchor not fetched yet is crawled. The crawler
recurses on the newly mapped pages, collecting them in an append-only
result list. That list can be rendered as a Graphviz `digraph`.

Modules follow the Go packages:

- `Strings`: prefix, substring, `strings.Split`/`strings.Join` and character counting.
- `Html`: the token type of the HTML tokenizer: kind, tag name and attributes.
- `Requester`: the network as a finite map `Web` from URL to response (token body, status). A URL that is not a key is a transport error. `Get` echoes the URL and passes the status through.
- `ParserConfig`: protocol, hostname, the `ValidHosts` set built by `setValidHosts`, and the URL parser, which enters as a function `parseUrl`.
- `Filters`: `canonical`, `missingScriptSrc` and `excludeInvalidURLs`. The image pattern is modelled as a substring test over its six alternatives.
- `Parser`: `Parse` over a token sequence, and `ParseCollection`.
- `Mapper`: `Map`, `appendWhenNotTracked` and `MapCollection`, against a reference definition of first-occurrence deduplication.
- `Crawler`: the worker-pool size, the dispatch loop, the fetching workers and `Crawl`.
- `Coordinator`: the entry-page checks of `Init` and the recursive `process`. The tracker and the results are threaded through as a `Session`. `process` is proved to terminate: every recursive call either shrinks the set of reachable URLs not yet tracked, or gets a shorter batch.
- `Formatter`: the `Dot` template, written out as string concatenation.
- `Scenarios`: the fixtures of `mapper_test.go` and `format_test.go`, stated as lemmas about the model.

Notes on the code's behaviour, which the model follows:

- **When a URL is tracked.** A URL enters the tracker only after its fetch succeeded (`internal/crawler/crawler.go:101`). The dispatch loop only reads the tracker (`internal/crawler/crawler.go:113`).
- **Crawl order.** `process` handles all of a page's discoveries, recursively, before the next page of the same batch, so the crawl is depth first.
- **Deduplication scope.** The mapper's tracked set is shared by the three categories of a page (`internal/mapper/mapper.go:50-57`). A value therefore appears only in the first category that mentions it.
- **Package wiring.** `coordinator.go` calls `parser.Init` and `parser.SetValidHosts` with signatures other than those in `parser.go`. The model uses `setValidHosts(hostname, subdomains string)` from `parser.go`.
- **Only the first `href` or `src` is checked.** The URL filter returns at the first attribute with the key (`internal/parser/filters.go:17-52`), but the mapper collects every attribute with the key (`internal/mapper/mapper.go:70-73`). A second `href` on a kept tag is therefore mapped, and crawled, even when the filter would reject it: an off-site `http://evil.com/` after a valid `/ok`, say. `Mapper.SecondKeyBypassesFilter` states this for every value, and `Mapper.OffSiteSecondHrefMapped` exhibits the off-site case.

An own-site absolute URL naming the bare hostname, such as `http://example.com/foo`, is rewritten to `http://www.example.com//foo`. The separator `/` is added whenever the raw value does not start with `/`, even when the parsed path already does. The model keeps this behaviour, and `Filters.BareHostAbsoluteGetsDoubleSlash` exhibits it.

## Model

| member | source | states |
|---|---|---|
| Strings.Split | internal/parser/parser.go:64 | splitting at a separator gives one more piece than there are separators, and no piece contains the separator |
| Strings.JoinSplit | internal/parser/parser.go:64 | joining the pieces of a split with the same separator gives back the original string |
| ParserConfig.SetValidHosts | internal/parser/parser.go:62-76 | every comma-separated entry contributes `entry.hostname`, or the bare hostname for an empty entry, and the set holds nothing else |
| ParserConfig.HostForInjective | internal/parser/parser.go:66-71 | two different entries never produce the same host |
| ParserConfig.ValidHostsExactly | internal/parser/parser.go:62-75 | the host for an entry is valid if and only if that entry is in the comma-separated list |
| ParserConfig.DefaultValidHosts | internal/parser/parser.go:62-76 | the default subdomain list `www,` (cmd/crawler/main.go line 44) yields exactly `{www.hostname, hostname}` |
| ParserConfig.ValidHostsEndInHostname | internal/parser/parser.go:71 | every valid host ends with the configured hostname |
| Filters.MatchesImagePatternIffOccurs | internal/parser/filters.go:13-28 | the image regexp, an unanchored alternation of six literals, matches a path if and only if one of `doc`, `ico`, `pdf`, `gif`, `jpg`, `png` occurs at some position anywhere in it; the scanning test `Strings.Contains` agrees with that positional definition through `Strings.ContainsIffOccurs` |
| Filters.Canonical | internal/parser/filters.go:70-77 | true if and only if some attribute has key `rel` and value `canonical` |
| Filters.MissingScriptSrc | internal/parser/filters.go:60-67 | true if and only if no attribute has key `src` |
| Filters.FindKey | internal/parser/filters.go:17-18 | finds the first attribute with the key; every attribute before it has another key; none means no attribute has it |
| Filters.CheckUrl | internal/parser/filters.go:19-52 | excluded on a parse error or an image-pattern path; otherwise kept if and only if the normalised host is in `ValidHosts`; an own-site value becomes `protocol://www.hostname` + prefix + path, with the `/` prefix present exactly when the raw value lacks a leading `/`; other hosts keep the raw value |
| Filters.ExcludeInvalidUrls | internal/parser/filters.go:16-57 | a token without the key is excluded; otherwise the first such attribute decides; a kept token differs from the input only in that attribute's value |
| Filters.OnlyFirstMatchExamined | internal/parser/filters.go:17-53 | attributes after the first one with the key never change the decision |
| Filters.FragmentInsensitive | internal/parser/filters.go:42-44 | two relative or bare-host references that parse to the same host and path, and agree on a leading `/`, get the same decision and value, so their fragment or query never splits a page; references naming `www.hostname` or another host keep their raw value, fragment included (the last clause of `Filters.CheckUrl`) |
| Filters.FilterIdempotent | internal/parser/filters.go:34-50 | checking a kept value again keeps it unchanged, if the URL parser reads the rewritten form back as host `www.hostname` |
| Filters.BareHostAbsoluteGetsDoubleSlash | internal/parser/filters.go:37-44 | `http://example.com/foo` is kept as `http://www.example.com//foo` |
| Parser.Classify | internal/parser/parser.go:101-130 | a token is kept if and only if it is an `a`, `link` or `script` start tag, is not a canonical link or an inline script, and passes the URL filter on `href` (`src` for scripts); it lands in the list matching its tag, carrying the rewritten value |
| Parser.ParseTokens | internal/parser/parser.go:88-132 | anchors hold only `a` tags, links only non-canonical `link` tags and scripts only `script` tags with a `src`; each carries the attribute the URL check looked at; the output is no longer than the input |
| Parser.ParseTokensSingle | internal/parser/parser.go:101-130 | one token that is not an error token contributes exactly what `Classify` decides: nothing, or the kept token at the front of its category's list |
| Parser.ParseTokensMembers | internal/parser/parser.go:88-132 | a token is in a category's list if and only if some token before the first error token is kept by `Classify` into that category as it |
| Parser.Parse | internal/parser/parser.go:80-133 | the page URL is copied unchanged and the three lists are well sorted |
| Parser.ParseMembers | internal/parser/parser.go:80-133 | the parsed page holds in each list exactly the tokens `Classify` keeps for that category from the body, up to the first error token |
| Parser.ParseTokensAppend | internal/parser/parser.go:120-130 | document order is kept: parsing a concatenation concatenates the parses |
| Parser.ParseStopsAtError | internal/parser/parser.go:92-100 | tokens after the first error token (end of input) are never looked at |
| Parser.ParseIgnoresOtherTokens | internal/parser/parser.go:91-101 | a token that is neither a start tag nor an error token changes nothing |
| Parser.NoCanonicalLinksOrInlineScripts | internal/parser/parser.go:108-118 | no canonical link and no script without `src` ever reaches the output |
| Parser.ParseCollection | internal/parser/parser.go:169-175 | exactly the parses of the status-200 pages as a multiset: each parse occurs as often as there are status-200 input positions with that parse; pages with distinct URLs give parses with distinct URLs |
| Mapper.FirstOccurrencesSpec | internal/mapper/mapper.go:70-86 | the deduplicated list has no value twice, holds exactly the values not seen before, and is ordered by first occurrence |
| Mapper.AppendAttrs | internal/mapper/mapper.go:72-82 | one token's attributes with the key are appended at their first occurrence if not tracked, and all of them become tracked |
| Mapper.AppendWhenNotTracked | internal/mapper/mapper.go:70-86 | the collection grows by the first occurrences of untracked values of the key over all tokens, and the tracked set grows by all those values |
| Mapper.Map | internal/mapper/mapper.go:49-65 | the URL is kept; anchors and links take `href` values and scripts `src` values, each list duplicate-free in first-occurrence order, with earlier categories' values excluded from later ones |
| Mapper.MapCategories | internal/mapper/mapper.go:50-57 | each list holds exactly its category's values not claimed earlier, and the three lists are pairwise disjoint |
| Mapper.SecondKeyBypassesFilter | internal/mapper/mapper.go:70-73 | for any first `href` the URL check keeps, a second `href` on the same anchor tag ends up among the page's mapped anchors whatever its value, because only the first attribute with the key is checked (filters.go:17-52) while the mapper collects all of them |
| Mapper.OffSiteSecondHrefMapped | internal/mapper/mapper.go:70-73 | with only `www.example.com` in scope, `http://evil.com/` is rejected by the URL check yet is mapped as an anchor when it follows a kept `/ok` on the same tag |
| Mapper.MapCollection | internal/mapper/mapper.go:89-131 | one mapped page per input page, in order, each keeping its URL and having duplicate-free anchors |
| Crawler.WorkerPool | internal/crawler/crawler.go:80-83 | the pool size is the smaller of the task count and 20, and positive when there is work |
| Crawler.Dispatch | internal/crawler/crawler.go:111-116 | exactly the anchors not in the tracker are queued; distinct anchors give a distinct queue |
| Crawler.FetchAll | internal/crawler/crawler.go:95-107 | every queued URL the web answers is fetched, whatever its status; failed fetches are dropped; every returned page is the response for a queued URL |
| Crawler.Crawl | internal/crawler/crawler.go:54-147 | no anchors: no workers and no pages; otherwise the pool size is min(anchors, 20), the tracker grows by exactly the untracked anchors that fetched successfully, and no more pages than anchors are returned |
| Crawler.TrackedAnchorNeverFetched | internal/crawler/crawler.go:111-115 | an anchor already tracked at dispatch is never fetched |
| Crawler.FailedFetchSkipped | internal/crawler/crawler.go:96-100 | a failed fetch is neither stored in the tracker nor returned |
| Requester.Get | internal/requester/http.go:44-48 | succeeds exactly for reachable URLs; the URL is echoed and the status and body passed through |
| Coordinator.Expand | internal/coordinator/coordinator.go:92-95 | one page's crawl, parse and map: the tracker grows by exactly the untracked reachable anchors; of these, exactly the ones that answered 200 are discovered, each as the mapped parse of its response; any discovery shrinks the frontier |
| Coordinator.NonOkDiscoveredTrackedNotReported | internal/coordinator/coordinator.go:93-95 | a discovered page with a non-200 status is tracked but never reported |
| Coordinator.Process | internal/coordinator/coordinator.go:91-103 | terminates; the results are only appended to, first with the batch's first page's discoveries; of the reachable URLs tracked during the call, exactly those that answered 200 are appended, each once (given duplicate-free anchors) and as the mapped parse of its response; every reachable anchor of the batch and of the appended pages ends up tracked; conversely every newly tracked URL is an anchor of the batch or of an appended page, and every appended page is linked from the batch or from a page appended before it, so nothing unreachable from the batch is crawled |
| Coordinator.Init | internal/coordinator/coordinator.go:53-78 | fails if and only if the entry fetch fails (error `EntryFetchFailed`) or its status is not 200 (error `EntryNotOk` carrying that status); otherwise the entry URL is tracked and never in the results, every other tracked URL that answered 200 is in the results exactly once as the mapped parse of its response, every reachable anchor of the entry page and of the results is tracked, and every tracked URL other than the entry is an anchor of the entry page or of a result, each result being linked from the entry page or from an earlier result |
| Coordinator.EntryUrl | internal/coordinator/coordinator.go:54 | the entry URL is the protocol, then `://`, then the bare hostname, and nothing else |
| Coordinator.EntryUrlDeterminesParts | internal/coordinator/coordinator.go:54 | when protocols contain no `:`, equal entry URLs come from the same protocol and hostname, so the entry URL can be read back into its parts |
| Formatter.Dot | internal/formatter/format.go:21-40 | the output starts with `digraph sitemap {` and ends with `}` |
| Formatter.EntriesAreJoined | internal/formatter/format.go:24-25 | a block's entries are the quoted anchors joined with commas |
| Formatter.EntriesCommas | internal/formatter/format.go:24-25 | for comma-free anchors, n anchors give n-1 commas, and splitting at the commas gives back the n quoted entries in order |
| Formatter.NoTrailingComma | internal/formatter/format.go:25 | a non-empty entry list ends with the closing quote of its last anchor |
| Formatter.EmptyBlock | internal/formatter/format.go:24-26 | a page without anchors renders an empty `-> { }` block |
| Formatter.BlocksAppend | internal/formatter/format.go:22-26 | one block per page, in input order |
| Formatter.DotIgnoresLinksAndScripts | internal/formatter/format.go:22-27 | the output depends only on each page's URL and anchors |
| Scenarios.MapperTestScenario | internal/mapper/mapper_test.go:35-113 | the test page maps to three absolute URLs per category; repeated `/foo`, `foo.css` and `foo.js` collapse, and the canonical link is absent |
| Scenarios.DotTestScenario | internal/formatter/format_test.go:10-53 | the test page renders as the header, one block with its three anchors separated by two commas, and the closing brace |

## Left out

- Goroutines, channels, wait groups and mutexes. Each worker pool is a sequential pass in input order. The Go code returns pages in completion order, so the model fixes one of the orders it can produce.
- Crawler.Crawl: every tracker check of the dispatch loop is made against the tracker as it was on entry. Workers store URLs concurrently with dispatch, so with repeated anchors the Go code could skip a later duplicate that the model fetches twice. `Map` never produces repeated anchors, so this does not arise along `process`.
- The unsynchronised `counter` of `Crawl` (a data race) and the coloured counter output, because they only feed diagnostics.
- Logging, timing, instrumentation and stdout printing, because they do not affect results.
- The HTML tokenizer (golang.org/x/net/html), because it is a foreign library. A page body is its token sequence, and an error token marks the end of input.
- `net/url.Parse`, because it is a foreign library. It is a function in the configuration that yields a host and path or an error.
- The regular-expression engine. The image pattern is a substring test over its six alternatives.
- HTTP I/O. The network is the `Web` map, and a URL outside it is a transport error.
- `log.Fatal` in `Init` and `Dot`. `Init` returns a `Failure`. `Dot`'s template always parses and executes, so its error paths are omitted.
- `Pretty` (JSON encoding), `internal/formatter/formatter.go` (an older copy of the same template that prints) and the command-line flags of `cmd/crawler/main.go`, because they are output and configuration plumbing.
- The package `Init` functions, because they only wire loggers and settings into package variables. The configuration is passed explicitly instead.
- Worker-pool sizes of `ParseCollection` and `MapCollection`. They use the same rule as `Crawl`, stated once by `Crawler.WorkerPool`, and do not affect results.
- Filters.FilterIdempotent: holds only under an explicit assumption about how the URL parser reads a rewritten URL, because `net/url` is not modelled.

=== FILE: config.dfy ===
/**
 * The parser package's configuration: the protocol and hostname the user
 * chose, the set of in-scope hosts built from the subdomain list, and the URL
 * parser (net/url), which is not part of this model and enters as a function.
 */
module ParserConfig {
  import opened Wrappers
  import Strings

  /** What net/url.Parse yields that the filters look at. Query and fragment are not kept. */
  datatype ParsedUrl = ParsedUrl(host: string, path: string)

  datatype Config = Config(
    protocol: string,
    hostname: string,
    validHosts: set<string>,
    parseUrl: string -> Option<ParsedUrl>)

  /** The host one subdomain entry stands for: `sub.hostname`, or the bare hostname for "". */
  function HostFor(subdomain: string, hostname: string): string {
    if subdomain == "" then hostname else subdomain + "." + hostname
  }

  /** The in-scope hosts for a comma-separated subdomain list. */
  function SetValidHosts(hostname: string, subdomains: string): (hosts: set<string>)
    ensures forall sub :: sub in Strings.Split(subdomains, ',') ==> HostFor(sub, hostname) in hosts
    ensures forall h :: h in hosts ==> exists sub :: sub in Strings.Split(subdomains, ',') && h == HostFor(sub, hostname)
  {
    set sub | sub in Strings.Split(subdomains, ',') :: HostFor(sub, hostname)
  }

  /** Two entries never stand for the same host. */
  lemma HostForInjective(a: string, b: string, hostname: string)
    requires HostFor(a, hostname) == HostFor(b, hostname)
    ensures a == b
  {
    if a != "" && b != "" {
      var ha := a + "." + hostname;
      var hb := b + "." + hostname;
      assert |a| == |b|;
      assert a == ha[..|a|] == hb[..|b|] == b;
    }
  }

  /**
   * A separator-free entry is in scope exactly when it is one of the listed
   * subdomains; in particular the bare hostname is in scope exactly when the
   * list holds an empty entry.
   */
  lemma ValidHostsExactly(hostname: string, subdomains: string, sub: string)
    ensures HostFor(sub, hostname) in SetValidHosts(hostname, subdomains)
        <==> sub in Strings.Split(subdomains, ',')
  {
    var hosts := SetValidHosts(hostname, subdomains);
    if HostFor(sub, hostname) in hosts {
      var other :| other in Strings.Split(subdomains, ',') && HostFor(sub, hostname) == HostFor(other, hostname);
      HostForInjective(sub, other, hostname);
    }
  }

  /** The default subdomain list "www," admits exactly `www.hostname` and `hostname`. */
  lemma DefaultValidHosts(hostname: string)
    ensures SetValidHosts(hostname, "www,") == {"www." + hostname, hostname}
  {
    var parts := Strings.Split("www,", ',');
    assert "www," == "www" + [','] + "";
    Strings.SplitAfterPiece("www", ',', "");
    assert parts == ["www", ""];
    var hosts := SetValidHosts(hostname, "www,");
    assert parts[0] in parts && parts[1] in parts;
    assert HostFor("www", hostname) in hosts && HostFor("", hostname) in hosts;
    forall h | h in hosts
      ensures h in {"www." + hostname, hostname}
    {
      var sub :| sub in parts && h == HostFor(sub, hostname);
      assert sub == "www" || sub == "";
      assert HostFor("www", hostname) == "www." + hostname;
    }
  }

  /** Every entry of the list stands for a host ending in the configured hostname. */
  lemma ValidHostsEndInHostname(hostname: string, subdomains: string, h: string)
    requires h in SetValidHosts(hostname, subdomains)
    ensures |hostname| <= |h| && h[|h| - |hostname|..] == hostname
  {
  }
}

=== FILE: coordinator.dfy ===
/**
 * The coordinator package: the entry-page checks and the recursive
 * `process`, which crawls each page of a batch, appends the newly mapped
 * pages to the results and recurses on them, depth first.
 */
module Coordinator {
  import opened Wrappers
  import opened Requester
  import opened ParserConfig
  import Parser
  import Mapper
  import Crawler

  /** The crawl state the Go code keeps in package variables: the tracker and the results. */
  datatype Session = Session(tracker: set<Url>, results: seq<Mapper.Page>)

  /** Why a run stops before crawling anything. */
  datatype InitError = EntryFetchFailed | EntryNotOk(status: int)

  /** The pages one crawl step discovered, mapped, and the tracker after it. */
  datatype Round = Round(discovered: seq<Mapper.Page>, tracker: set<Url>)

  /** Every page in `pages` was newly tracked (in `after` but not `before`) and answered 200. */
  predicate Fresh(web: Web, pages: seq<Mapper.Page>, before: set<Url>, after: set<Url>) {
    forall i :: 0 <= i < |pages| ==>
      pages[i].url in after && pages[i].url !in before && pages[i].url in web && web[pages[i].url].status == 200
  }

  /** `longer` is `shorter` with pages appended at the end. */
  predicate Extends(longer: seq<Mapper.Page>, shorter: seq<Mapper.Page>) {
    |shorter| <= |longer| && longer[..|shorter|] == shorter
  }

  predicate AnchorsDistinct(batch: seq<Mapper.Page>) {
    forall i :: 0 <= i < |batch| ==> NoDup(batch[i].anchors)
  }

  /**
   * Of the reachable URLs tracked between `before` and `after`, exactly those
   * that answered 200 have a page in `appended`.
   */
  predicate Reported(web: Web, before: set<Url>, after: set<Url>, appended: seq<Mapper.Page>) {
    forall u :: u in after - before && u in web ==>
      (web[u].status == 200 <==> exists i :: 0 <= i < |appended| && appended[i].url == u)
  }

  /** Every page is the mapped parse of what the web answers for its URL. */
  predicate MappedFromWeb(cfg: Config, web: Web, pages: seq<Mapper.Page>) {
    forall i :: 0 <= i < |pages| ==>
      pages[i].url in web && pages[i] == Mapper.Map(Parser.Parse(cfg, Get(web, pages[i].url).value))
  }

  /** Every reachable anchor of every page is tracked: nothing linked was left uncrawled. */
  predicate Closed(web: Web, pages: seq<Mapper.Page>, tracker: set<Url>) {
    forall i, u :: 0 <= i < |pages| && u in pages[i].anchors && u in web ==> u in tracker
  }

  /** Some page of `pages` carries `u` among its anchors. */
  predicate Linked(pages: seq<Mapper.Page>, u: Url) {
    exists i :: 0 <= i < |pages| && u in pages[i].anchors
  }

  /** Every URL tracked between `before` and `after` is an anchor of the batch or of an appended page. */
  predicate OnlyLinked(batch: seq<Mapper.Page>, appended: seq<Mapper.Page>, before: set<Url>, after: set<Url>) {
    forall u :: u in after - before ==> Linked(batch, u) || Linked(appended, u)
  }

  /** Every appended page is linked from the batch or from a page appended before it. */
  predicate LinkedInOrder(batch: seq<Mapper.Page>, appended: seq<Mapper.Page>) {
    forall k :: 0 <= k < |appended| ==> Linked(batch, appended[k].url) || Linked(appended[..k], appended[k].url)
  }

  /** Fewer untracked reachable URLs: the termination measure of `process`. */
  function Frontier(web: Web, tracker: set<Url>): nat {
    |web.Keys - tracker|
  }

  lemma {:induction false} SubsetCard(a: set<Url>, b: set<Url>)
    requires a <= b
    ensures |a| <= |b|
    decreases a
  {
    if a != {} {
      var x :| x in a;
      SubsetCard(a - {x}, b - {x});
    }
  }

  lemma FrontierMonotone(web: Web, t0: set<Url>, t1: set<Url>)
    requires t0 <= t1
    ensures Frontier(web, t1) <= Frontier(web, t0)
  {
    SubsetCard(web.Keys - t1, web.Keys - t0);
  }

  lemma FrontierShrinks(web: Web, t0: set<Url>, t1: set<Url>, u: Url)
    requires t0 <= t1 && u in t1 && u !in t0 && u in web
    ensures Frontier(web, t1) < Frontier(web, t0)
  {
    var a := web.Keys - t1;
    var b := web.Keys - t0;
    SubsetCard(a, b - {u});
    assert |b - {u}| == |b| - 1;
  }

  /** One iteration of process's loop body: crawl the page, parse and map what came back. */
  function Expand(cfg: Config, web: Web, page: Mapper.Page, tracker: set<Url>): (r: Round)
    ensures tracker <= r.tracker && r.tracker - tracker <= web.Keys
    ensures |r.discovered| <= |page.anchors|
    ensures Fresh(web, r.discovered, tracker, r.tracker)
    ensures AnchorsDistinct(r.discovered)
    ensures NoDup(page.anchors) ==> NoDup(Mapper.Urls(r.discovered))
    ensures Frontier(web, r.tracker) <= Frontier(web, tracker)
    ensures r.discovered != [] ==> Frontier(web, r.tracker) < Frontier(web, tracker)
    ensures forall u :: u in r.tracker - tracker <==> u in page.anchors && u !in tracker && u in web
    ensures forall u :: u in page.anchors && u in web ==> u in r.tracker
    ensures Reported(web, tracker, r.tracker, r.discovered)
    ensures MappedFromWeb(cfg, web, r.discovered)
  {
    var step := Crawler.Crawl(web, page, tracker);
    var mapped := Mapper.MapCollection(Parser.ParseCollection(cfg, step.pages));
    DiscoveredAreFresh(cfg, web, step, tracker);
    DiscoveredComplete(cfg, web, step, tracker);
    FrontierMonotone(web, tracker, step.tracker);
    Round(mapped, step.tracker)
  }

  lemma DiscoveredAreFresh(cfg: Config, web: Web, step: Crawler.CrawlStep, tracker: set<Url>)
    requires tracker <= step.tracker
    requires forall p :: p in step.pages ==>
      p.url !in tracker && p.url in step.tracker && Get(web, p.url) == Some(p)
    ensures var mapped := Mapper.MapCollection(Parser.ParseCollection(cfg, step.pages));
      && Fresh(web, mapped, tracker, step.tracker)
      && (NoDup(RawUrls(step.pages)) ==> NoDup(Mapper.Urls(mapped)))
      && (mapped != [] ==> Frontier(web, step.tracker) < Frontier(web, tracker))
  {
    var parsed := Parser.ParseCollection(cfg, step.pages);
    var mapped := Mapper.MapCollection(parsed);
    forall i | 0 <= i < |mapped|
      ensures mapped[i].url in step.tracker && mapped[i].url !in tracker
      ensures mapped[i].url in web && web[mapped[i].url].status == 200
    {
      assert parsed[i] in parsed;
      var p :| p in step.pages && p.status == 200 && parsed[i] == Parser.Parse(cfg, p);
    }
    if mapped != [] {
      FrontierShrinks(web, tracker, step.tracker, mapped[0].url);
    }
  }

  /** Every newly tracked page that answered 200 is discovered, as the mapped parse of its response. */
  lemma DiscoveredComplete(cfg: Config, web: Web, step: Crawler.CrawlStep, tracker: set<Url>)
    requires forall p :: p in step.pages ==>
      p.url !in tracker && p.url in step.tracker && Get(web, p.url) == Some(p)
    requires forall u :: u in step.tracker - tracker && u in web ==> exists p :: p in step.pages && p.url == u
    ensures var mapped := Mapper.MapCollection(Parser.ParseCollection(cfg, step.pages));
      Reported(web, tracker, step.tracker, mapped) && MappedFromWeb(cfg, web, mapped)
  {
    var parsed := Parser.ParseCollection(cfg, step.pages);
    var mapped := Mapper.MapCollection(parsed);
    forall i | 0 <= i < |mapped|
      ensures mapped[i].url in web && web[mapped[i].url].status == 200
      ensures mapped[i] == Mapper.Map(Parser.Parse(cfg, Get(web, mapped[i].url).value))
    {
      assert parsed[i] in parsed;
      var p :| p in step.pages && p.status == 200 && parsed[i] == Parser.Parse(cfg, p);
    }
    forall u | u in step.tracker - tracker && u in web && web[u].status == 200
      ensures exists i :: 0 <= i < |mapped| && mapped[i].url == u
    {
      var p :| p in step.pages && p.url == u;
      assert Parser.Parse(cfg, p) in parsed;
      var j :| 0 <= j < |parsed| && parsed[j] == Parser.Parse(cfg, p);
      assert mapped[j].url == u;
    }
  }

  /** A page discovered with a non-200 status is tracked but never reported. */
  lemma NonOkDiscoveredTrackedNotReported(cfg: Config, web: Web, page: Mapper.Page, tracker: set<Url>, u: Url)
    requires u in page.anchors && u !in tracker && u in web && web[u].status != 200
    ensures u in Expand(cfg, web, page, tracker).tracker
    ensures forall p :: p in Expand(cfg, web, page, tracker).discovered ==> p.url != u
  {
    var r := Expand(cfg, web, page, tracker);
    forall p | p in r.discovered
      ensures p.url != u
    {
      var i :| 0 <= i < |r.discovered| && r.discovered[i] == p;
    }
  }

  /**
   * process: for each page of the batch, in order, crawl it, append the
   * mapped discoveries to the results and recurse on them before moving to
   * the next page. Terminates because every recursive call either shrinks
   * the set of untracked reachable URLs or works on a shorter batch.
   */
  function Process(cfg: Config, web: Web, batch: seq<Mapper.Page>, s: Session): (r: Session)
    ensures s.tracker <= r.tracker && r.tracker - s.tracker <= web.Keys
    ensures Extends(r.results, s.results)
    ensures Fresh(web, r.results[|s.results|..], s.tracker, r.tracker)
    ensures AnchorsDistinct(batch) ==> NoDup(Mapper.Urls(r.results[|s.results|..]))
    ensures Reported(web, s.tracker, r.tracker, r.results[|s.results|..])
    ensures MappedFromWeb(cfg, web, r.results[|s.results|..])
    ensures Closed(web, batch, r.tracker) && Closed(web, r.results[|s.results|..], r.tracker)
    ensures |batch| > 0 ==> Extends(r.results, s.results + Expand(cfg, web, batch[0], s.tracker).discovered)
    ensures OnlyLinked(batch, r.results[|s.results|..], s.tracker, r.tracker)
    ensures LinkedInOrder(batch, r.results[|s.results|..])
    decreases Frontier(web, s.tracker), |batch|
  {
    if |batch| == 0 then
      assert s.results[|s.results|..] == [];
      s
    else
      var round := Expand(cfg, web, batch[0], s.tracker);
      var inner := Process(cfg, web, round.discovered, Session(round.tracker, s.results + round.discovered));
      FrontierMonotone(web, s.tracker, inner.tracker);
      var outer := Process(cfg, web, batch[1..], inner);
      ProcessStep(web, batch, s, round, inner, outer);
      ProcessStepComplete(cfg, web, batch, s, round, inner, outer);
      ProcessStepLinked(web, batch, s, round, inner, outer);
      outer
  }

  /** The completeness facts of one page's round, its nested pages and the rest of the batch combine. */
  lemma ProcessStepComplete(cfg: Config, web: Web, batch: seq<Mapper.Page>, s: Session, round: Round, inner: Session, outer: Session)
    requires |batch| > 0
    requires s.tracker <= round.tracker <= inner.tracker <= outer.tracker
    requires Extends(inner.results, s.results + round.discovered) && Extends(outer.results, inner.results)
    requires Fresh(web, outer.results[|s.results|..], s.tracker, outer.tracker)
    requires Reported(web, s.tracker, round.tracker, round.discovered)
    requires Reported(web, round.tracker, inner.tracker, inner.results[|s.results + round.discovered|..])
    requires Reported(web, inner.tracker, outer.tracker, outer.results[|inner.results|..])
    requires MappedFromWeb(cfg, web, round.discovered)
    requires MappedFromWeb(cfg, web, inner.results[|s.results + round.discovered|..])
    requires MappedFromWeb(cfg, web, outer.results[|inner.results|..])
    requires forall u :: u in batch[0].anchors && u in web ==> u in round.tracker
    requires Closed(web, round.discovered, inner.tracker)
    requires Closed(web, inner.results[|s.results + round.discovered|..], inner.tracker)
    requires Closed(web, batch[1..], outer.tracker)
    requires Closed(web, outer.results[|inner.results|..], outer.tracker)
    ensures Reported(web, s.tracker, outer.tracker, outer.results[|s.results|..])
    ensures MappedFromWeb(cfg, web, outer.results[|s.results|..])
    ensures Closed(web, batch, outer.tracker) && Closed(web, outer.results[|s.results|..], outer.tracker)
  {
    var a := round.discovered;
    var b := inner.results[|s.results + round.discovered|..];
    var c := outer.results[|inner.results|..];
    SegmentSplit(s.results, a, inner.results, outer.results);
    ReportedChain(web, s.tracker, round.tracker, inner.tracker, outer.tracker, a, b, c);
    MappedAppend(cfg, web, a, b);
    MappedAppend(cfg, web, a + b, c);
    ClosedMono(web, a, inner.tracker, outer.tracker);
    ClosedMono(web, b, inner.tracker, outer.tracker);
    ClosedAppend(web, a, b, outer.tracker);
    ClosedAppend(web, a + b, c, outer.tracker);
    ClosedAppend(web, [batch[0]], batch[1..], outer.tracker);
    assert [batch[0]] + batch[1..] == batch;
  }

  /** The pages appended by one step: the round's discoveries, then the nested ones, then the rest. */
  lemma SegmentSplit(s0: seq<Mapper.Page>, disc: seq<Mapper.Page>, innerR: seq<Mapper.Page>, outerR: seq<Mapper.Page>)
    requires Extends(innerR, s0 + disc) && Extends(outerR, innerR)
    ensures outerR[|s0|..] == disc + innerR[|s0 + disc|..] + outerR[|innerR|..]
  {
    assert outerR == innerR + outerR[|innerR|..];
    assert innerR == s0 + disc + innerR[|s0 + disc|..];
  }

  lemma ReportedChain(web: Web, t0: set<Url>, t1: set<Url>, t2: set<Url>, t3: set<Url>,
                      a: seq<Mapper.Page>, b: seq<Mapper.Page>, c: seq<Mapper.Page>)
    requires t0 <= t1 <= t2 <= t3
    requires Reported(web, t0, t1, a) && Reported(web, t1, t2, b) && Reported(web, t2, t3, c)
    requires Fresh(web, a + b + c, t0, t3)
    ensures Reported(web, t0, t3, a + b + c)
  {
    var all := a + b + c;
    forall u | u in t3 - t0 && u in web && web[u].status == 200
      ensures exists i :: 0 <= i < |all| && all[i].url == u
    {
      if u in t1 {
        var i :| 0 <= i < |a| && a[i].url == u;
        assert all[i] == a[i];
      } else if u in t2 {
        var i :| 0 <= i < |b| && b[i].url == u;
        assert all[|a| + i] == b[i];
      } else {
        var i :| 0 <= i < |c| && c[i].url == u;
        assert all[|a| + |b| + i] == c[i];
      }
    }
  }

  lemma MappedAppend(cfg: Config, web: Web, a: seq<Mapper.Page>, b: seq<Mapper.Page>)
    requires MappedFromWeb(cfg, web, a) && MappedFromWeb(cfg, web, b)
    ensures MappedFromWeb(cfg, web, a + b)
  {
    forall i | |a| <= i < |a + b|
      ensures (a + b)[i] == b[i - |a|]
    {
    }
  }

  lemma ClosedMono(web: Web, pages: seq<Mapper.Page>, t1: set<Url>, t2: set<Url>)
    requires t1 <= t2 && Closed(web, pages, t1)
    ensures Closed(web, pages, t2)
  {
  }

  lemma ClosedAppend(web: Web, a: seq<Mapper.Page>, b: seq<Mapper.Page>, t: set<Url>)
    requires Closed(web, a, t) && Closed(web, b, t)
    ensures Closed(web, a + b, t)
  {
    forall i, u | 0 <= i < |a + b| && u in (a + b)[i].anchors && u in web
      ensures u in t
    {
      if i >= |a| {
        assert (a + b)[i] == b[i - |a|];
      }
    }
  }

  /** Only linked URLs are tracked and appended across one page's round, its nested pages and the rest of the batch. */
  lemma ProcessStepLinked(web: Web, batch: seq<Mapper.Page>, s: Session, round: Round, inner: Session, outer: Session)
    requires |batch| > 0
    requires s.tracker <= round.tracker <= inner.tracker <= outer.tracker
    requires forall u :: u in round.tracker - s.tracker ==> u in batch[0].anchors
    requires Fresh(web, round.discovered, s.tracker, round.tracker)
    requires Extends(inner.results, s.results + round.discovered) && Extends(outer.results, inner.results)
    requires OnlyLinked(round.discovered, inner.results[|s.results + round.discovered|..], round.tracker, inner.tracker)
    requires LinkedInOrder(round.discovered, inner.results[|s.results + round.discovered|..])
    requires OnlyLinked(batch[1..], outer.results[|inner.results|..], inner.tracker, outer.tracker)
    requires LinkedInOrder(batch[1..], outer.results[|inner.results|..])
    ensures OnlyLinked(batch, outer.results[|s.results|..], s.tracker, outer.tracker)
    ensures LinkedInOrder(batch, outer.results[|s.results|..])
  {
    var a := round.discovered;
    var b := inner.results[|s.results + a|..];
    var c := outer.results[|inner.results|..];
    SegmentSplit(s.results, a, inner.results, outer.results);
    forall k | 0 <= k < |a|
      ensures a[k].url in batch[0].anchors
    {
      assert a[k].url in round.tracker - s.tracker;
    }
    OnlyLinkedChain(batch, a, b, c, s.tracker, round.tracker, inner.tracker, outer.tracker);
    LinkedInOrderChain(batch, a, b, c);
  }

  lemma LinkedAppend(x: seq<Mapper.Page>, y: seq<Mapper.Page>, u: Url)
    ensures Linked(x + y, u) <==> Linked(x, u) || Linked(y, u)
  {
    if Linked(x, u) {
      var i :| 0 <= i < |x| && u in x[i].anchors;
      assert (x + y)[i] == x[i];
    }
    if Linked(y, u) {
      var i :| 0 <= i < |y| && u in y[i].anchors;
      assert (x + y)[|x| + i] == y[i];
    }
    if Linked(x + y, u) {
      var i :| 0 <= i < |x + y| && u in (x + y)[i].anchors;
      if i < |x| {
        assert (x + y)[i] == x[i];
      } else {
        assert (x + y)[i] == y[i - |x|];
      }
    }
  }

  lemma LinkedTail(batch: seq<Mapper.Page>, u: Url)
    requires |batch| > 0
    ensures Linked(batch, u) <==> u in batch[0].anchors || Linked(batch[1..], u)
  {
    LinkedAppend([batch[0]], batch[1..], u);
    assert [batch[0]] + batch[1..] == batch;
  }

  /** A URL tracked in one of three consecutive intervals is linked from the batch or the combined segments. */
  lemma OnlyLinkedChain(batch: seq<Mapper.Page>, a: seq<Mapper.Page>, b: seq<Mapper.Page>, c: seq<Mapper.Page>,
                        t0: set<Url>, t1: set<Url>, t2: set<Url>, t3: set<Url>)
    requires |batch| > 0 && t0 <= t1 <= t2 <= t3
    requires forall u :: u in t1 - t0 ==> u in batch[0].anchors
    requires OnlyLinked(a, b, t1, t2) && OnlyLinked(batch[1..], c, t2, t3)
    ensures OnlyLinked(batch, a + b + c, t0, t3)
  {
    forall u | u in t3 - t0
      ensures Linked(batch, u) || Linked(a + b + c, u)
    {
      LinkedTail(batch, u);
      LinkedAppend(a, b, u);
      LinkedAppend(a + b, c, u);
    }
  }

  /** Each page of three consecutive segments is linked from the batch or from an earlier page. */
  lemma LinkedInOrderChain(batch: seq<Mapper.Page>, a: seq<Mapper.Page>, b: seq<Mapper.Page>, c: seq<Mapper.Page>)
    requires |batch| > 0
    requires forall k :: 0 <= k < |a| ==> a[k].url in batch[0].anchors
    requires LinkedInOrder(a, b) && LinkedInOrder(batch[1..], c)
    ensures LinkedInOrder(batch, a + b + c)
  {
    var all := a + b + c;
    forall k | 0 <= k < |all|
      ensures Linked(batch, all[k].url) || Linked(all[..k], all[k].url)
    {
      LinkedTail(batch, all[k].url);
      if k < |a| {
        assert all[k] == a[k];
      } else if k < |a| + |b| {
        var i := k - |a|;
        assert all[k] == b[i];
        assert all[..k] == a + b[..i];
        LinkedAppend(a, b[..i], b[i].url);
      } else {
        var i := k - |a| - |b|;
        assert all[k] == c[i];
        assert all[..k] == (a + b) + c[..i];
        LinkedAppend(a + b, c[..i], c[i].url);
      }
    }
  }

  lemma ProcessStep(web: Web, batch: seq<Mapper.Page>, s: Session, round: Round, inner: Session, outer: Session)
    requires |batch| > 0
    requires s.tracker <= round.tracker
    requires Fresh(web, round.discovered, s.tracker, round.tracker)
    requires NoDup(batch[0].anchors) ==> NoDup(Mapper.Urls(round.discovered))
    requires round.tracker <= inner.tracker && inner.tracker - round.tracker <= web.Keys
    requires round.tracker - s.tracker <= web.Keys
    requires Extends(inner.results, s.results + round.discovered)
    requires Fresh(web, inner.results[|s.results + round.discovered|..], round.tracker, inner.tracker)
    requires NoDup(Mapper.Urls(inner.results[|s.results + round.discovered|..]))
    requires inner.tracker <= outer.tracker && outer.tracker - inner.tracker <= web.Keys
    requires Extends(outer.results, inner.results)
    requires Fresh(web, outer.results[|inner.results|..], inner.tracker, outer.tracker)
    requires AnchorsDistinct(batch[1..]) ==> NoDup(Mapper.Urls(outer.results[|inner.results|..]))
    ensures s.tracker <= outer.tracker && outer.tracker - s.tracker <= web.Keys
    ensures Extends(outer.results, s.results)
    ensures Extends(outer.results, s.results + round.discovered)
    ensures Fresh(web, outer.results[|s.results|..], s.tracker, outer.tracker)
    ensures AnchorsDistinct(batch) ==> NoDup(Mapper.Urls(outer.results[|s.results|..]))
  {
    var a := round.discovered;
    var b := inner.results[|s.results + a|..];
    var c := outer.results[|inner.results|..];
    ExtendsTrans(outer.results, inner.results, s.results + a);
    ExtendsTrans(outer.results, s.results + a, s.results);
    SegmentSplit(s.results, a, inner.results, outer.results);
    FreshChain(web, s.tracker, round.tracker, inner.tracker, outer.tracker, a, b, c);
    if AnchorsDistinct(batch) {
      assert AnchorsDistinct(batch[1..]) by {
        forall i | 0 <= i < |batch[1..]|
          ensures NoDup(batch[1..][i].anchors)
        {
          assert batch[1..][i] == batch[i + 1];
        }
      }
      DistinctChain(web, s.tracker, round.tracker, inner.tracker, outer.tracker, a, b, c);
    }
  }

  lemma ExtendsTrans(x: seq<Mapper.Page>, y: seq<Mapper.Page>, z: seq<Mapper.Page>)
    requires Extends(x, y) && Extends(y, z)
    ensures Extends(x, z)
  {
    assert x[..|z|] == x[..|y|][..|z|];
  }

  /** Three segments tracked in consecutive intervals are together fresh across the whole interval. */
  lemma FreshChain(web: Web, t0: set<Url>, t1: set<Url>, t2: set<Url>, t3: set<Url>,
                   a: seq<Mapper.Page>, b: seq<Mapper.Page>, c: seq<Mapper.Page>)
    requires t0 <= t1 <= t2 <= t3
    requires Fresh(web, a, t0, t1) && Fresh(web, b, t1, t2) && Fresh(web, c, t2, t3)
    ensures Fresh(web, a + b + c, t0, t3)
  {
    var all := a + b + c;
    forall i | 0 <= i < |all|
      ensures all[i].url in t3 && all[i].url !in t0 && all[i].url in web && web[all[i].url].status == 200
    {
      if i < |a| {
        assert all[i] == a[i];
      } else if i < |a| + |b| {
        assert all[i] == b[i - |a|];
      } else {
        assert all[i] == c[i - |a| - |b|];
      }
    }
  }

  /** Segments tracked in disjoint intervals, each without repeats, have no repeats together. */
  lemma DistinctChain(web: Web, t0: set<Url>, t1: set<Url>, t2: set<Url>, t3: set<Url>,
                      a: seq<Mapper.Page>, b: seq<Mapper.Page>, c: seq<Mapper.Page>)
    requires t0 <= t1 <= t2 <= t3
    requires Fresh(web, a, t0, t1) && Fresh(web, b, t1, t2) && Fresh(web, c, t2, t3)
    requires NoDup(Mapper.Urls(a)) && NoDup(Mapper.Urls(b)) && NoDup(Mapper.Urls(c))
    ensures NoDup(Mapper.Urls(a + b + c))
  {
    var all := a + b + c;
    forall i, j | 0 <= i < j < |all|
      ensures all[i].url != all[j].url
    {
      if j < |a| {
        assert all[i] == a[i] && all[j] == a[j];
      } else if j < |a| + |b| {
        assert all[j] == b[j - |a|];
        if i < |a| {
          assert all[i] == a[i];
        } else {
          assert all[i] == b[i - |a|];
        }
      } else {
        assert all[j] == c[j - |a| - |b|];
        if i < |a| {
          assert all[i] == a[i];
        } else if i < |a| + |b| {
          assert all[i] == b[i - |a|];
        } else {
          assert all[i] == c[i - |a| - |b|];
        }
      }
    }
  }

  /** The entry URL: the configured protocol and bare hostname. */
  function EntryUrl(cfg: Config): (r: Url)
    ensures |r| == |cfg.protocol| + 3 + |cfg.hostname|
    ensures r[..|cfg.protocol|] == cfg.protocol
    ensures r[|cfg.protocol|..|cfg.protocol| + 3] == "://"
    ensures r[|cfg.protocol| + 3..] == cfg.hostname
  {
    cfg.protocol + "://" + cfg.hostname
  }

  /** A protocol without a colon can be read back from the entry URL, and so can the hostname. */
  lemma EntryUrlDeterminesParts(c1: Config, c2: Config)
    requires ':' !in c1.protocol && ':' !in c2.protocol
    requires EntryUrl(c1) == EntryUrl(c2)
    ensures c1.protocol == c2.protocol && c1.hostname == c2.hostname
  {
    var u := EntryUrl(c1);
    var n1 := |c1.protocol|;
    var n2 := |c2.protocol|;
    assert u[n1] == u[n1..n1 + 3][0] == ':';
    assert u[n2] == u[n2..n2 + 3][0] == ':';
    assert forall i :: 0 <= i < n1 ==> u[i] == u[..n1][i] == c1.protocol[i];
    assert forall i :: 0 <= i < n2 ==> u[i] == u[..n2][i] == c2.protocol[i];
    assert n1 == n2;
  }

  /** The entry page as `Init` maps it, before anything is crawled. */
  function EntryPage(cfg: Config, web: Web): Mapper.Page
    requires EntryUrl(cfg) in web
  {
    Mapper.Map(Parser.Parse(cfg, Get(web, EntryUrl(cfg)).value))
  }

  /**
   * Init: fetch the entry page and stop on a transport error or a non-200
   * status; otherwise track the entry URL, parse and map the entry page and
   * process it. The entry page itself is never among the results; every
   * other tracked page that answered 200 is, once, as its mapped parse,
   * every reachable anchor of the entry page and of the results is tracked,
   * and nothing is tracked that no page reached from the entry links to.
   */
  function Init(cfg: Config, web: Web): (r: Result<Session, InitError>)
    ensures r.Failure? <==> EntryUrl(cfg) !in web || web[EntryUrl(cfg)].status != 200
    ensures r.Failure? && EntryUrl(cfg) !in web ==> r.error == EntryFetchFailed
    ensures r.Failure? && EntryUrl(cfg) in web ==> r.error == EntryNotOk(web[EntryUrl(cfg)].status)
    ensures r.Success? ==>
      && EntryUrl(cfg) in r.value.tracker
      && r.value.tracker <= web.Keys
      && NoDup(Mapper.Urls(r.value.results))
      && Fresh(web, r.value.results, {EntryUrl(cfg)}, r.value.tracker)
      && Reported(web, {EntryUrl(cfg)}, r.value.tracker, r.value.results)
      && MappedFromWeb(cfg, web, r.value.results)
      && Closed(web, r.value.results, r.value.tracker)
    ensures r.Success? ==> EntryUrl(cfg) in web && Closed(web, [EntryPage(cfg, web)], r.value.tracker)
    ensures r.Success? ==>
      && EntryUrl(cfg) in web
      && OnlyLinked([EntryPage(cfg, web)], r.value.results, {EntryUrl(cfg)}, r.value.tracker)
      && LinkedInOrder([EntryPage(cfg, web)], r.value.results)
  {
    var entry := EntryUrl(cfg);
    match Get(web, entry)
    case None => Failure(EntryFetchFailed)
    case Some(page) =>
      if page.status != 200 then Failure(EntryNotOk(page.status))
      else
        var seed := Mapper.Map(Parser.Parse(cfg, page));
        ProcessFromEntry(cfg, web, entry, seed);
        ProcessFromEntryClosed(cfg, web, entry, seed);
        ProcessFromEntryLinked(cfg, web, entry, seed);
        Success(Process(cfg, web, [seed], Session({entry}, [])))
  }

  /** Processing the entry page from a tracker holding only the entry URL. */
  lemma ProcessFromEntry(cfg: Config, web: Web, entry: Url, seed: Mapper.Page)
    requires entry in web
    ensures var out := Process(cfg, web, [seed], Session({entry}, []));
      && entry in out.tracker && out.tracker <= web.Keys
      && Fresh(web, out.results, {entry}, out.tracker)
      && Reported(web, {entry}, out.tracker, out.results)
      && MappedFromWeb(cfg, web, out.results)
  {
    var out := Process(cfg, web, [seed], Session({entry}, []));
    assert out.results[|Session({entry}, []).results|..] == out.results;
  }

  /** From the entry page, no URL is reported twice and every reachable anchor seen is tracked. */
  lemma ProcessFromEntryClosed(cfg: Config, web: Web, entry: Url, seed: Mapper.Page)
    requires NoDup(seed.anchors)
    ensures var out := Process(cfg, web, [seed], Session({entry}, []));
      && NoDup(Mapper.Urls(out.results))
      && Closed(web, [seed], out.tracker) && Closed(web, out.results, out.tracker)
  {
    var out := Process(cfg, web, [seed], Session({entry}, []));
    assert out.results[|Session({entry}, []).results|..] == out.results;
    assert AnchorsDistinct([seed]);
  }

  /** From the entry page, only URLs reached through links are tracked, and each result is linked from an earlier page. */
  lemma ProcessFromEntryLinked(cfg: Config, web: Web, entry: Url, seed: Mapper.Page)
    ensures var out := Process(cfg, web, [seed], Session({entry}, []));
      && OnlyLinked([seed], out.results, {entry}, out.tracker)
      && LinkedInOrder([seed], out.results)
  {
    var out := Process(cfg, web, [seed], Session({entry}, []));
    assert out.results[|Session({entry}, []).results|..] == out.results;
  }
}

=== FILE: counting.dfy ===
/**
 * Counting the positions of a sequence whose element satisfies a test: the
 * multiplicity argument behind "exactly these elements, as a multiset".
 */
module Counting {
  /** The positions of `xs` whose element passes `f`. */
  function Positions<T>(xs: seq<T>, f: T -> bool): set<nat> {
    set i: nat | i < |xs| && f(xs[i])
  }

  function Shift(s: set<nat>): set<nat> {
    set i | i in s :: i + 1
  }

  /** Shifting every position by one keeps the number of positions. */
  lemma {:induction false} ShiftCard(s: set<nat>)
    ensures |Shift(s)| == |s|
    decreases s
  {
    if |s| > 0 {
      var x :| x in s;
      var t := s - {x};
      ShiftCard(t);
      forall y | y in Shift(s)
        ensures y in Shift(t) + {x + 1}
      {
        var i :| i in s && y == i + 1;
        if i != x {
          assert i in t;
        }
      }
      forall y | y in Shift(t) + {x + 1}
        ensures y in Shift(s)
      {
        if y != x + 1 {
          var i :| i in t && y == i + 1;
          assert i in s;
        }
      }
      assert Shift(s) == Shift(t) + {x + 1};
    }
  }

  /** The head contributes one position exactly when it passes the test. */
  lemma PositionsStep<T>(xs: seq<T>, f: T -> bool)
    requires |xs| > 0
    ensures |Positions(xs, f)| == (if f(xs[0]) then 1 else 0) + |Positions(xs[1..], f)|
  {
    var tail := Positions(xs[1..], f);
    var all := Positions(xs, f);
    ShiftCard(tail);
    forall i | i in all && i != 0
      ensures i in Shift(tail)
    {
      assert xs[1..][i - 1] == xs[i];
      assert i - 1 in tail;
    }
    forall i | i in Shift(tail)
      ensures i in all && i != 0
    {
      var j :| j in tail && i == j + 1;
      assert xs[1..][j] == xs[i];
    }
    if f(xs[0]) {
      assert all == Shift(tail) + {0};
    } else {
      assert all == Shift(tail);
    }
  }
}

=== FILE: crawler.dfy ===
/**
 * The crawler package: one crawl step over a mapped page's anchors. The
 * tracker is a set of URLs; the worker pool is a sequential pass over the
 * dispatched URLs.
 */
module Crawler {
  import opened Wrappers
  import opened Requester
  import Mapper
  import Parser

  /** The worker-pool cap shared by the crawler, parser and mapper packages. */
  const DefaultWorkerPool: nat := 20

  /** Pool size for `tasks` jobs: the default, or fewer when there are fewer jobs. */
  function WorkerPool(tasks: nat): (w: nat)
    ensures w <= DefaultWorkerPool && w <= tasks
    ensures w == tasks || w == DefaultWorkerPool
    ensures tasks > 0 ==> w > 0
  {
    if tasks < DefaultWorkerPool then tasks else DefaultWorkerPool
  }

  /** What Crawl produces: the fetched pages, the grown tracker and the number of workers started. */
  datatype CrawlStep = CrawlStep(pages: seq<RawPage>, tracker: set<Url>, workers: nat)

  /** The dispatch loop: an anchor is queued when the tracker does not hold it yet. */
  function Dispatch(anchors: seq<Url>, tracker: set<Url>): (queue: seq<Url>)
    ensures forall u :: u in queue <==> u in anchors && u !in tracker
    ensures |queue| <= |anchors|
    ensures NoDup(anchors) ==> NoDup(queue)
    decreases |anchors|
  {
    if |anchors| == 0 then []
    else
      var rest := Dispatch(anchors[1..], tracker);
      assert NoDup(anchors) ==> anchors[0] !in anchors[1..];
      if anchors[0] in tracker then rest else [anchors[0]] + rest
  }

  /** The workers: each queued URL is fetched; a failed fetch is dropped, a successful one kept whatever its status. */
  function FetchAll(web: Web, queue: seq<Url>): (pages: seq<RawPage>)
    ensures |pages| <= |queue|
    ensures forall p :: p in pages ==> p.url in queue && Get(web, p.url) == Some(p)
    ensures forall u :: u in queue && u in web ==> exists p :: p in pages && p.url == u
    ensures NoDup(queue) ==> NoDup(RawUrls(pages))
    decreases |queue|
  {
    if |queue| == 0 then []
    else
      var rest := FetchAll(web, queue[1..]);
      match Get(web, queue[0])
      case None => rest
      case Some(p) =>
        HeadFetchIsFresh(queue, rest, p);
        [p] + rest
  }

  lemma HeadFetchIsFresh(queue: seq<Url>, rest: seq<RawPage>, p: RawPage)
    requires |queue| > 0 && p.url == queue[0]
    requires forall q :: q in rest ==> q.url in queue[1..]
    requires NoDup(queue[1..]) ==> NoDup(RawUrls(rest))
    ensures NoDup(queue) ==> NoDup(RawUrls([p] + rest))
  {
    if NoDup(queue) {
      assert NoDup(queue[1..]);
      assert queue[0] !in queue[1..];
      var r := [p] + rest;
      forall i, j | 0 <= i < j < |r|
        ensures r[i].url != r[j].url
      {
        assert r[j] == rest[j - 1] && r[j] in rest;
        if i > 0 {
          assert r[i] == rest[i - 1];
        }
      }
    }
  }

  /** The URLs of the fetched pages, which the workers store in the tracker. */
  function FetchedUrls(pages: seq<RawPage>): set<Url> {
    set p | p in pages :: p.url
  }

  /**
   * Crawl: with no anchors nothing is started and nothing returned.
   * Otherwise every anchor missing from the tracker is fetched, and the URL
   * is stored in the tracker only after its fetch succeeded.
   */
  function Crawl(web: Web, page: Mapper.Page, tracker: set<Url>): (r: CrawlStep)
    ensures |page.anchors| == 0 ==> r.pages == [] && r.tracker == tracker && r.workers == 0
    ensures |page.anchors| > 0 ==> r.workers == WorkerPool(|page.anchors|)
    ensures tracker <= r.tracker
    ensures forall u :: u in r.tracker - tracker <==> u in page.anchors && u !in tracker && u in web
    ensures |r.pages| <= |page.anchors|
    ensures forall p :: p in r.pages ==>
      && p.url in page.anchors && p.url !in tracker && p.url in r.tracker
      && Get(web, p.url) == Some(p)
    ensures forall u :: u in page.anchors && u !in tracker && u in web ==> exists p :: p in r.pages && p.url == u
    ensures NoDup(page.anchors) ==> NoDup(RawUrls(r.pages))
  {
    if |page.anchors| == 0 then CrawlStep([], tracker, 0)
    else
      var queue := Dispatch(page.anchors, tracker);
      var pages := FetchAll(web, queue);
      CrawlStep(pages, tracker + FetchedUrls(pages), WorkerPool(|page.anchors|))
  }

  /** An anchor already in the tracker is never fetched. */
  lemma TrackedAnchorNeverFetched(web: Web, page: Mapper.Page, tracker: set<Url>, u: Url)
    requires u in tracker
    ensures forall p :: p in Crawl(web, page, tracker).pages ==> p.url != u
  {
  }

  /** A failed fetch leaves no trace: the URL is neither stored nor returned. */
  lemma FailedFetchSkipped(web: Web, page: Mapper.Page, tracker: set<Url>, u: Url)
    requires u !in web && u !in tracker
    ensures u !in Crawl(web, page, tracker).tracker
    ensures forall p :: p in Crawl(web, page, tracker).pages ==> p.url != u
  {
  }
}

=== FILE: filters.dfy ===
/**
 * The parser's token filters: canonical-link detection, the inline-script
 * test, and the URL check that rejects image-like paths and off-site hosts
 * and rewrites own-site URLs to absolute `protocol://www.hostname/...` form.
 */
module Filters {
  import opened Wrappers
  import opened Html
  import opened ParserConfig
  import Strings

  /** The alternatives of the image/document regexp, matched anywhere in the path. */
  const ImagePatterns: seq<string> := ["doc", "ico", "pdf", "gif", "jpg", "png"]

  /** The compiled regexp's `MatchString` on a URL path. */
  predicate MatchesImagePattern(path: string) {
    exists i :: 0 <= i < |ImagePatterns| && Strings.Contains(path, ImagePatterns[i])
  }

  /** The path matches exactly when one of the alternatives occurs at some position in it. */
  lemma MatchesImagePatternIffOccurs(path: string)
    ensures MatchesImagePattern(path) <==> exists i, k :: 0 <= i < |ImagePatterns| && Strings.OccursAt(path, ImagePatterns[i], k)
  {
    forall i | 0 <= i < |ImagePatterns|
      ensures Strings.Contains(path, ImagePatterns[i]) <==> exists k :: Strings.OccursAt(path, ImagePatterns[i], k)
    {
      Strings.ContainsIffOccurs(path, ImagePatterns[i]);
    }
  }

  /** A `<link>` can carry rel="canonical" rather than point at a stylesheet. */
  function Canonical(attrs: seq<Attribute>): (r: bool)
    ensures r <==> exists i :: 0 <= i < |attrs| && attrs[i].key == "rel" && attrs[i].val == "canonical"
    decreases |attrs|
  {
    if |attrs| == 0 then false
    else if attrs[0].key == "rel" && attrs[0].val == "canonical" then true
    else Canonical(attrs[1..])
  }

  /** A `<script>` without a src attribute holds inline code, not a reference. */
  function MissingScriptSrc(attrs: seq<Attribute>): (r: bool)
    ensures r <==> forall i :: 0 <= i < |attrs| ==> attrs[i].key != "src"
    decreases |attrs|
  {
    if |attrs| == 0 then true
    else if attrs[0].key == "src" then false
    else MissingScriptSrc(attrs[1..])
  }

  /** Position of the first attribute named `key`, where the filter loop stops. */
  function FindKey(attrs: seq<Attribute>, key: string): (r: Option<nat>)
    ensures r.None? <==> forall i :: 0 <= i < |attrs| ==> attrs[i].key != key
    ensures r.Some? ==> r.value < |attrs| && attrs[r.value].key == key
    ensures r.Some? ==> forall j :: 0 <= j < r.value ==> attrs[j].key != key
    decreases |attrs|
  {
    if |attrs| == 0 then None
    else if attrs[0].key == key then Some(0)
    else match FindKey(attrs[1..], key)
      case None => None
      case Some(i) => Some(i + 1)
  }

  /** An empty host or the bare hostname both mean "this site". */
  predicate IsOwnHost(cfg: Config, host: string) {
    host == "" || host == cfg.hostname
  }

  /** The host a URL is judged by once own-site hosts are rewritten to `www.hostname`. */
  function EffectiveHost(cfg: Config, host: string): string {
    if IsOwnHost(cfg, host) then "www." + cfg.hostname else host
  }

  /** The absolute form of an own-site reference; a "/" is inserted unless `raw` starts with one. */
  function Absolute(cfg: Config, raw: string, path: string): string {
    cfg.protocol + "://" + "www." + cfg.hostname + (if Strings.StartsWith(raw, "/") then "" else "/") + path
  }

  /**
   * The decision for one attribute value: None excludes the token, Some(v)
   * keeps it with value `v`.
   */
  function CheckUrl(cfg: Config, raw: string): (r: Option<string>)
    ensures cfg.parseUrl(raw).None? ==> r.None?
    ensures cfg.parseUrl(raw).Some? && MatchesImagePattern(cfg.parseUrl(raw).value.path) ==> r.None?
    ensures r.Some? <==>
      cfg.parseUrl(raw).Some? && !MatchesImagePattern(cfg.parseUrl(raw).value.path)
      && EffectiveHost(cfg, cfg.parseUrl(raw).value.host) in cfg.validHosts
    ensures r.Some? && IsOwnHost(cfg, cfg.parseUrl(raw).value.host) ==>
      r.value == Absolute(cfg, raw, cfg.parseUrl(raw).value.path)
    ensures r.Some? && !IsOwnHost(cfg, cfg.parseUrl(raw).value.host) ==> r.value == raw
  {
    match cfg.parseUrl(raw)
    case None => None
    case Some(u) =>
      if MatchesImagePattern(u.path) then None
      else
        var value := if IsOwnHost(cfg, u.host) then Absolute(cfg, raw, u.path) else raw;
        if EffectiveHost(cfg, u.host) in cfg.validHosts then Some(value) else None
  }

  /**
   * excludeInvalidURLs: None means the token is excluded. Only the first
   * attribute named `key` is examined; a kept token has that attribute's
   * value replaced by the checked value and everything else unchanged.
   */
  function ExcludeInvalidUrls(cfg: Config, t: Token, key: string): (r: Option<Token>)
    ensures FindKey(t.attrs, key).None? ==> r.None?
    ensures FindKey(t.attrs, key).Some? ==>
      (r.Some? <==> CheckUrl(cfg, t.attrs[FindKey(t.attrs, key).value].val).Some?)
    ensures r.Some? ==>
      var i := FindKey(t.attrs, key).value;
      && r.value.kind == t.kind && r.value.data == t.data
      && |r.value.attrs| == |t.attrs|
      && r.value.attrs[i] == Attribute(key, CheckUrl(cfg, t.attrs[i].val).value)
      && (forall j :: 0 <= j < |t.attrs| && j != i ==> r.value.attrs[j] == t.attrs[j])
  {
    match FindKey(t.attrs, key)
    case None => None
    case Some(i) =>
      match CheckUrl(cfg, t.attrs[i].val)
      case None => None
      case Some(v) => Some(t.(attrs := t.attrs[i := Attribute(key, v)]))
  }

  /** Attributes after the first one named `key` never influence the decision. */
  lemma OnlyFirstMatchExamined(cfg: Config, t: Token, u: Token, key: string, i: nat)
    requires FindKey(t.attrs, key) == Some(i)
    requires i < |u.attrs| && t.attrs[..i + 1] == u.attrs[..i + 1]
    ensures ExcludeInvalidUrls(cfg, t, key).Some? <==> ExcludeInvalidUrls(cfg, u, key).Some?
  {
    assert forall j :: 0 <= j <= i ==> u.attrs[j] == t.attrs[..i + 1][j];
    assert FindKey(u.attrs, key) == Some(i);
  }

  /**
   * Two relative or bare-host references that parse alike and agree on a
   * leading "/" get the same decision and value, so their fragment or query
   * never splits one page into two. References naming `www.hostname` or
   * another host keep their raw value, fragment included.
   */
  lemma FragmentInsensitive(cfg: Config, a: string, b: string)
    requires cfg.parseUrl(a).Some? && cfg.parseUrl(a) == cfg.parseUrl(b)
    requires IsOwnHost(cfg, cfg.parseUrl(a).value.host)
    requires Strings.StartsWith(a, "/") <==> Strings.StartsWith(b, "/")
    ensures CheckUrl(cfg, a) == CheckUrl(cfg, b)
  {
  }

  lemma SlashPrefixKeepsImageMatch(path: string, prefix: string)
    requires prefix == "" || prefix == "/"
    ensures MatchesImagePattern(prefix + path) <==> MatchesImagePattern(path)
  {
    if prefix == "/" {
      forall i | 0 <= i < |ImagePatterns|
        ensures Strings.Contains(prefix + path, ImagePatterns[i]) <==> Strings.Contains(path, ImagePatterns[i])
      {
        Strings.SlashPrefixKeepsMatches(path, ImagePatterns[i]);
      }
    } else {
      assert prefix + path == path;
    }
  }

  /**
   * Checking a kept value a second time keeps it unchanged, provided the URL
   * parser reads a rewritten `protocol://www.hostname<rest>` as host
   * `www.hostname` and path `<rest>`.
   */
  lemma FilterIdempotent(cfg: Config, raw: string)
    requires CheckUrl(cfg, raw).Some?
    requires IsOwnHost(cfg, cfg.parseUrl(raw).value.host) ==>
      var authority := cfg.protocol + "://" + "www." + cfg.hostname;
      var v := CheckUrl(cfg, raw).value;
      |authority| <= |v| &&
      cfg.parseUrl(v) == Some(ParsedUrl("www." + cfg.hostname, v[|authority|..]))
    ensures CheckUrl(cfg, CheckUrl(cfg, raw).value) == CheckUrl(cfg, raw)
  {
    var u := cfg.parseUrl(raw).value;
    if IsOwnHost(cfg, u.host) {
      var authority := cfg.protocol + "://" + "www." + cfg.hostname;
      var prefix := if Strings.StartsWith(raw, "/") then "" else "/";
      var v := CheckUrl(cfg, raw).value;
      assert v == authority + (prefix + u.path);
      assert v[|authority|..] == prefix + u.path;
      SlashPrefixKeepsImageMatch(u.path, prefix);
      assert |"www." + cfg.hostname| != |cfg.hostname|;
      assert !IsOwnHost(cfg, "www." + cfg.hostname);
    }
  }

  /**
   * An own-site absolute URL to the bare hostname comes out with a doubled
   * slash, because the inserted "/" depends on the raw value and not on the
   * parsed path.
   */
  lemma BareHostAbsoluteGetsDoubleSlash(cfg: Config)
    requires cfg.protocol == "http" && cfg.hostname == "example.com"
    requires "www.example.com" in cfg.validHosts
    requires cfg.parseUrl("http://example.com/foo") == Some(ParsedUrl("example.com", "/foo"))
    ensures CheckUrl(cfg, "http://example.com/foo") == Some("http://www.example.com//foo")
  {
    var raw := "http://example.com/foo";
    assert raw[0] == 'h';
    assert raw[..1] != "/" by { assert raw[..1][0] == 'h'; }
    assert !Strings.StartsWith(raw, "/");
    assert IsOwnHost(cfg, "example.com");
    assert EffectiveHost(cfg, "example.com") == "www.example.com";
    assert Absolute(cfg, raw, "/foo") == "http" + "://" + "www." + "example.com" + "/" + "/foo";
    assert "http" + "://" + "www." + "example.com" + "/" + "/foo" == "http://www.example.com//foo";
    assert !MatchesImagePattern("/foo") by {
      forall i | 0 <= i < |ImagePatterns|
        ensures !Strings.Contains("/foo", ImagePatterns[i])
      {
        var pat := ImagePatterns[i];
        assert |pat| == 3 && pat[0] != '/' && pat != "foo";
        assert "/foo"[1..] == "foo" && "foo"[1..] == "oo";
        Strings.ShortNeverContains("oo", pat);
        assert !Strings.StartsWith("foo", pat);
        assert !Strings.StartsWith("/foo", pat);
      }
    }
  }

  /** With `www.example.com` in scope, a relative path without an image pattern is kept. */
  lemma RelativePathKept(cfg: Config)
    requires cfg.hostname == "example.com" && "www.example.com" in cfg.validHosts
    requires cfg.parseUrl("/ok") == Some(ParsedUrl("", "/ok"))
    ensures CheckUrl(cfg, "/ok").Some?
  {
    assert !MatchesImagePattern("/ok") by {
      forall i | 0 <= i < |ImagePatterns|
        ensures !Strings.Contains("/ok", ImagePatterns[i])
      {
        var pat := ImagePatterns[i];
        assert |pat| == 3 && pat[0] != '/';
        assert "/ok"[1..] == "ok";
        Strings.ShortNeverContains("ok", pat);
        assert !Strings.StartsWith("/ok", pat);
      }
    }
    assert IsOwnHost(cfg, "");
    assert EffectiveHost(cfg, "") == "www." + "example.com" == "www.example.com";
  }

  /** A host outside the site and outside the valid hosts is rejected. */
  lemma OffSiteRejected(cfg: Config)
    requires cfg.hostname == "example.com" && cfg.validHosts == {"www.example.com"}
    requires cfg.parseUrl("http://evil.com/") == Some(ParsedUrl("evil.com", "/"))
    ensures CheckUrl(cfg, "http://evil.com/").None?
  {
    assert !IsOwnHost(cfg, "evil.com");
  }
}

=== FILE: formatter.dfy ===
/**
 * The formatter's Graphviz output: one block per crawled page, listing the
 * page's anchors only, separated by commas with none after the last.
 */
module Formatter {
  import Strings
  import opened Mapper

  const Header: string := "digraph sitemap {"

  /** One anchor line of a block, as the template writes it. */
  function Quote(anchor: string): string {
    "\n      \"" + anchor + "\""
  }

  function QuoteAll(anchors: seq<string>): (q: seq<string>)
    ensures |q| == |anchors|
    ensures forall i :: 0 <= i < |q| ==> q[i] == Quote(anchors[i])
  {
    seq(|anchors|, i requires 0 <= i < |anchors| => Quote(anchors[i]))
  }

  /** The inner `range $i, $v := .Anchors` loop: a comma follows every entry but the last. */
  function Entries(anchors: seq<string>, i: nat): string
    decreases |anchors| - i
  {
    if i >= |anchors| then ""
    else Quote(anchors[i]) + (if i + 1 == |anchors| then "" else ",") + Entries(anchors, i + 1)
  }

  /** One page: its quoted URL, then its anchors inside `-> { ... }`. */
  function Block(page: Page): string {
    "\n  \"" + page.url + "\"\n    -> {" + Entries(page.anchors, 0) + "\n    }"
  }

  /** The outer `range .` loop over the pages, in input order. */
  function Blocks(pages: seq<Page>): string
    decreases |pages|
  {
    if |pages| == 0 then "" else Block(pages[0]) + Blocks(pages[1..])
  }

  /** Dot: the rendered graph opens with the header and closes with "}". */
  function Dot(results: seq<Page>): (out: string)
    ensures Strings.StartsWith(out, Header)
    ensures |out| > 0 && out[|out| - 1] == '}'
  {
    Header + Blocks(results) + "\n}"
  }

  /** The anchor entries are the quoted anchors joined with commas. */
  lemma {:induction false} EntriesAreJoined(anchors: seq<string>, i: nat)
    requires i <= |anchors|
    ensures Entries(anchors, i) == Strings.Join(QuoteAll(anchors)[i..], ',')
    decreases |anchors| - i
  {
    if i < |anchors| {
      EntriesAreJoined(anchors, i + 1);
      var q := QuoteAll(anchors);
      assert q[i..][0] == Quote(anchors[i]);
      assert q[i..][1..] == q[i + 1..];
    }
  }

  lemma QuoteHasNoComma(anchor: string)
    requires ',' !in anchor
    ensures ',' !in Quote(anchor)
  {
  }

  /**
   * For comma-free anchors, a block body holds exactly n - 1 commas for n
   * anchors, and splitting it at the commas gives back the n quoted entries
   * in order.
   */
  lemma EntriesCommas(anchors: seq<string>)
    requires |anchors| > 0
    requires forall i :: 0 <= i < |anchors| ==> ',' !in anchors[i]
    ensures Strings.CountChar(Entries(anchors, 0), ',') == |anchors| - 1
    ensures Strings.Split(Entries(anchors, 0), ',') == QuoteAll(anchors)
  {
    var q := QuoteAll(anchors);
    EntriesAreJoined(anchors, 0);
    assert q[0..] == q;
    forall i | 0 <= i < |q|
      ensures ',' !in q[i]
    {
      QuoteHasNoComma(anchors[i]);
    }
    Strings.JoinSeparatorCount(q, ',');
    Strings.SplitJoin(q, ',');
  }

  /** No trailing comma: a non-empty entry list ends with the closing quote of its last anchor. */
  lemma NoTrailingComma(anchors: seq<string>)
    requires |anchors| > 0
    ensures var e := Entries(anchors, 0); |e| > 0 && e[|e| - 1] == '"'
  {
    LastEntryEndsWithQuote(anchors, 0);
  }

  lemma {:induction false} LastEntryEndsWithQuote(anchors: seq<string>, i: nat)
    requires i < |anchors|
    ensures var e := Entries(anchors, i); |e| > 0 && e[|e| - 1] == '"'
    decreases |anchors| - i
  {
    if i + 1 < |anchors| {
      LastEntryEndsWithQuote(anchors, i + 1);
    }
  }

  /** A page without anchors renders an empty `-> { }` block. */
  lemma EmptyBlock(page: Page)
    requires |page.anchors| == 0
    ensures Block(page) == "\n  \"" + page.url + "\"\n    -> {\n    }"
  {
  }

  /** One block per page, in input order: rendering a concatenation concatenates the blocks. */
  lemma {:induction false} BlocksAppend(xs: seq<Page>, ys: seq<Page>)
    ensures Blocks(xs + ys) == Blocks(xs) + Blocks(ys)
    decreases |xs|
  {
    if |xs| == 0 {
      assert xs + ys == ys;
    } else {
      assert (xs + ys)[1..] == xs[1..] + ys;
      BlocksAppend(xs[1..], ys);
    }
  }

  /** Links and scripts never influence the output: only URLs and anchors do. */
  lemma {:induction false} DotIgnoresLinksAndScripts(xs: seq<Page>, ys: seq<Page>)
    requires |xs| == |ys|
    requires forall i :: 0 <= i < |xs| ==> xs[i].url == ys[i].url && xs[i].anchors == ys[i].anchors
    ensures Dot(xs) == Dot(ys)
  {
    BlocksOnlyAnchors(xs, ys);
  }

  lemma {:induction false} BlocksOnlyAnchors(xs: seq<Page>, ys: seq<Page>)
    requires |xs| == |ys|
    requires forall i :: 0 <= i < |xs| ==> xs[i].url == ys[i].url && xs[i].anchors == ys[i].anchors
    ensures Blocks(xs) == Blocks(ys)
    decreases |xs|
  {
    if |xs| > 0 {
      BlocksOnlyAnchors(xs[1..], ys[1..]);
    }
  }
}

=== FILE: html.dfy ===
/**
 * The tokens the HTML tokenizer hands to the parser. Tokenizing the raw body
 * bytes is not part of this model: a page body is already a token sequence.
 */
module Html {

  /** The token kinds the tokenizer distinguishes; `ErrorToken` also marks end of input. */
  datatype TokenKind =
    | ErrorToken
    | TextToken
    | StartTagToken
    | EndTagToken
    | SelfClosingTagToken
    | CommentToken
    | DoctypeToken

  /** One `key="val"` attribute of a tag, in source order. */
  datatype Attribute = Attribute(key: string, val: string)

  /** A token: its kind, its tag name (`data`) and its attributes. */
  datatype Token = Token(kind: TokenKind, data: string, attrs: seq<Attribute>)
}

=== FILE: mapper.dfy ===
/**
 * The mapper package: a tokenized page becomes a page of URL strings, each
 * list free of duplicates and in order of first occurrence, with one tracked
 * set shared by the anchors, links and scripts of the page.
 */
module Mapper {
  import opened Html
  import opened Requester
  import opened Wrappers
  import ParserConfig
  import Filters
  import Strings
  import Parser

  /** A mapped page: the unit stored in the results and crawled further. */
  datatype Page = Page(url: Url, anchors: seq<string>, links: seq<string>, scripts: seq<string>)

  /** The URLs of mapped pages, in order. */
  function Urls(pages: seq<Page>): (r: seq<Url>)
    ensures |r| == |pages| && forall i :: 0 <= i < |pages| ==> r[i] == pages[i].url
  {
    seq(|pages|, i requires 0 <= i < |pages| => pages[i].url)
  }

  /** What appendWhenNotTracked hands back: the grown list and the grown tracked set. */
  datatype Collected = Collected(values: seq<string>, tracked: set<string>)

  function Elems(s: seq<string>): set<string> {
    set v | v in s
  }

  /** The values of every attribute named `key` of one token, in attribute order. */
  function KeyValues(key: string, attrs: seq<Attribute>): seq<string>
    decreases |attrs|
  {
    if |attrs| == 0 then []
    else (if attrs[0].key == key then [attrs[0].val] else []) + KeyValues(key, attrs[1..])
  }

  /** The values of every attribute named `key`, token by token, in document order. */
  function AttrValues(key: string, tokens: seq<Token>): seq<string>
    decreases |tokens|
  {
    if |tokens| == 0 then [] else KeyValues(key, tokens[0].attrs) + AttrValues(key, tokens[1..])
  }

  /** Index of the first occurrence of `v` in `vs`, or |vs| when absent. */
  function FirstIndex(vs: seq<string>, v: string): (k: nat)
    ensures k <= |vs|
    ensures k < |vs| <==> v in vs
    ensures k < |vs| ==> vs[k] == v && v !in vs[..k]
    decreases |vs|
  {
    if |vs| == 0 then 0
    else if vs[0] == v then 0
    else
      var k := FirstIndex(vs[1..], v);
      assert vs[1..][..k] == vs[1..k + 1];
      assert vs[..k + 1] == [vs[0]] + vs[1..k + 1];
      k + 1
  }

  /**
   * Reference definition of the dedup: the values of `vs` not already in
   * `seen`, each kept at its first occurrence.
   */
  function FirstOccurrences(vs: seq<string>, seen: set<string>): seq<string>
    decreases |vs|
  {
    if |vs| == 0 then []
    else if vs[0] in seen then FirstOccurrences(vs[1..], seen)
    else [vs[0]] + FirstOccurrences(vs[1..], seen + {vs[0]})
  }

  /**
   * What the dedup means: no value twice, exactly the unseen values of `vs`,
   * ordered by where each first occurs in `vs`.
   */
  lemma {:induction false} FirstOccurrencesSpec(vs: seq<string>, seen: set<string>)
    ensures var out := FirstOccurrences(vs, seen);
      && NoDup(out)
      && (forall v :: v in out <==> v in vs && v !in seen)
      && (forall i, j :: 0 <= i < j < |out| ==> FirstIndex(vs, out[i]) < FirstIndex(vs, out[j]))
  {
    FirstOccurrencesMembers(vs, seen);
    FirstOccurrencesNoDup(vs, seen);
    FirstOccurrencesOrdered(vs, seen);
  }

  lemma {:induction false} FirstOccurrencesMembers(vs: seq<string>, seen: set<string>)
    ensures forall v :: v in FirstOccurrences(vs, seen) <==> v in vs && v !in seen
    decreases |vs|
  {
    if |vs| > 0 {
      var seen' := if vs[0] in seen then seen else seen + {vs[0]};
      FirstOccurrencesMembers(vs[1..], seen');
      assert vs == [vs[0]] + vs[1..];
    }
  }

  lemma {:induction false} FirstOccurrencesNoDup(vs: seq<string>, seen: set<string>)
    ensures NoDup(FirstOccurrences(vs, seen))
    decreases |vs|
  {
    if |vs| > 0 {
      var seen' := if vs[0] in seen then seen else seen + {vs[0]};
      FirstOccurrencesNoDup(vs[1..], seen');
      FirstOccurrencesMembers(vs[1..], seen');
      if vs[0] !in seen {
        var rest := FirstOccurrences(vs[1..], seen');
        var out := [vs[0]] + rest;
        forall i, j | 0 <= i < j < |out|
          ensures out[i] != out[j]
        {
          assert out[j] == rest[j - 1];
          if i > 0 {
            assert out[i] == rest[i - 1];
          }
        }
      }
    }
  }

  /** `out` lists values in the order of their first occurrence in `vs`. */
  predicate OrderedByFirstIndex(vs: seq<string>, out: seq<string>) {
    forall i, j :: 0 <= i < j < |out| ==> FirstIndex(vs, out[i]) < FirstIndex(vs, out[j])
  }

  lemma {:induction false} FirstOccurrencesOrdered(vs: seq<string>, seen: set<string>)
    ensures OrderedByFirstIndex(vs, FirstOccurrences(vs, seen))
    decreases |vs|
  {
    if |vs| > 0 {
      var seen' := if vs[0] in seen then seen else seen + {vs[0]};
      var rest := FirstOccurrences(vs[1..], seen');
      FirstOccurrencesOrdered(vs[1..], seen');
      FirstOccurrencesMembers(vs[1..], seen');
      assert vs[0] !in rest;
      OrderedShift(vs, rest);
    }
  }

  /** Ordering within the tail carries over to the whole, with the head in front or not. */
  lemma OrderedShift(vs: seq<string>, rest: seq<string>)
    requires |vs| > 0 && vs[0] !in rest
    requires OrderedByFirstIndex(vs[1..], rest)
    ensures OrderedByFirstIndex(vs, rest)
    ensures OrderedByFirstIndex(vs, [vs[0]] + rest)
  {
    ShiftFirstIndex(vs, rest);
    var out := [vs[0]] + rest;
    forall i, j | 0 <= i < j < |out|
      ensures FirstIndex(vs, out[i]) < FirstIndex(vs, out[j])
    {
      assert out[j] == rest[j - 1];
      if i > 0 {
        assert out[i] == rest[i - 1];
      }
    }
  }

  lemma ShiftFirstIndex(vs: seq<string>, rest: seq<string>)
    requires |vs| > 0 && vs[0] !in rest
    ensures forall i :: 0 <= i < |rest| ==> FirstIndex(vs, rest[i]) == FirstIndex(vs[1..], rest[i]) + 1
  {
  }

  lemma ElemsAppend(a: seq<string>, b: seq<string>)
    ensures Elems(a + b) == Elems(a) + Elems(b)
  {
  }

  /** Deduplicating a concatenation: the second part only contributes values unseen in the first. */
  lemma {:induction false} FirstOccurrencesAppend(xs: seq<string>, ys: seq<string>, seen: set<string>)
    ensures FirstOccurrences(xs + ys, seen) == FirstOccurrences(xs, seen) + FirstOccurrences(ys, seen + Elems(xs))
    decreases |xs|
  {
    if |xs| == 0 {
      assert xs + ys == ys;
      assert seen + Elems(xs) == seen;
    } else {
      var seen' := if xs[0] in seen then seen else seen + {xs[0]};
      assert (xs + ys)[0] == xs[0];
      assert (xs + ys)[1..] == xs[1..] + ys;
      FirstOccurrencesAppend(xs[1..], ys, seen');
      assert seen' + Elems(xs[1..]) == seen + Elems(xs) by {
        assert xs == [xs[0]] + xs[1..];
      }
    }
  }

  /** The inner loop of appendWhenNotTracked over one token's attributes. */
  function AppendAttrs(key: string, collection: seq<string>, attrs: seq<Attribute>, tracked: set<string>): (r: Collected)
    ensures r.values == collection + FirstOccurrences(KeyValues(key, attrs), tracked)
    ensures r.tracked == tracked + Elems(KeyValues(key, attrs))
    decreases |attrs|
  {
    if |attrs| == 0 then Collected(collection, tracked)
    else
      var a := attrs[0];
      var r := if a.key == key && a.val !in tracked
        then AppendAttrs(key, collection + [a.val], attrs[1..], tracked + {a.val})
        else AppendAttrs(key, collection, attrs[1..], tracked);
      AppendAttrsStep(key, collection, attrs, tracked);
      r
  }

  lemma AppendAttrsStep(key: string, collection: seq<string>, attrs: seq<Attribute>, tracked: set<string>)
    requires |attrs| > 0
    ensures var a := attrs[0];
      var kv := KeyValues(key, attrs);
      var rest := KeyValues(key, attrs[1..]);
      && (a.key == key && a.val !in tracked ==>
            && collection + FirstOccurrences(kv, tracked)
               == (collection + [a.val]) + FirstOccurrences(rest, tracked + {a.val})
            && tracked + Elems(kv) == (tracked + {a.val}) + Elems(rest))
      && (!(a.key == key && a.val !in tracked) ==>
            && FirstOccurrences(kv, tracked) == FirstOccurrences(rest, tracked)
            && tracked + Elems(kv) == tracked + Elems(rest))
  {
    var a := attrs[0];
    var rest := KeyValues(key, attrs[1..]);
    if a.key == key {
      assert KeyValues(key, attrs) == [a.val] + rest;
      assert ([a.val] + rest)[1..] == rest;
    } else {
      assert KeyValues(key, attrs) == rest;
    }
  }

  /**
   * appendWhenNotTracked: every attribute named `key` of every token is
   * visited; a value is appended and tracked only when not tracked yet.
   */
  function AppendWhenNotTracked(key: string, collection: seq<string>, assets: seq<Token>, tracked: set<string>): (r: Collected)
    ensures r.values == collection + FirstOccurrences(AttrValues(key, assets), tracked)
    ensures r.tracked == tracked + Elems(AttrValues(key, assets))
    decreases |assets|
  {
    if |assets| == 0 then Collected(collection, tracked)
    else
      var c := AppendAttrs(key, collection, assets[0].attrs, tracked);
      AppendTokenStep(key, collection, assets, tracked);
      AppendWhenNotTracked(key, c.values, assets[1..], c.tracked)
  }

  lemma AppendTokenStep(key: string, collection: seq<string>, assets: seq<Token>, tracked: set<string>)
    requires |assets| > 0
    ensures var kv := KeyValues(key, assets[0].attrs);
      var rest := AttrValues(key, assets[1..]);
      && (collection + FirstOccurrences(kv, tracked)) + FirstOccurrences(rest, tracked + Elems(kv))
         == collection + FirstOccurrences(AttrValues(key, assets), tracked)
      && (tracked + Elems(kv)) + Elems(rest) == tracked + Elems(AttrValues(key, assets))
  {
    var kv := KeyValues(key, assets[0].attrs);
    var rest := AttrValues(key, assets[1..]);
    assert AttrValues(key, assets) == kv + rest;
    FirstOccurrencesAppend(kv, rest, tracked);
    ElemsAppend(kv, rest);
  }

  /**
   * Map: the URL is kept; anchors and links take their `href` values, scripts
   * their `src` values; one tracked set runs through all three in that
   * order, so a value lands only in the first category that mentions it.
   */
  function Map(page: Parser.TokenizedPage): (r: Page)
    ensures r.url == page.url
    ensures r.anchors == FirstOccurrences(AttrValues("href", page.anchors), {})
    ensures r.links == FirstOccurrences(AttrValues("href", page.links), Elems(r.anchors))
    ensures r.scripts == FirstOccurrences(AttrValues("src", page.scripts), Elems(r.anchors) + Elems(r.links))
    ensures NoDup(r.anchors) && NoDup(r.links) && NoDup(r.scripts)
  {
    var anchors := AppendWhenNotTracked("href", [], page.anchors, {});
    var links := AppendWhenNotTracked("href", [], page.links, anchors.tracked);
    var scripts := AppendWhenNotTracked("src", [], page.scripts, links.tracked);
    FirstOccurrencesSpec(AttrValues("href", page.anchors), {});
    FirstOccurrencesSpec(AttrValues("href", page.links), anchors.tracked);
    FirstOccurrencesSpec(AttrValues("src", page.scripts), links.tracked);
    var av := FirstOccurrences(AttrValues("href", page.anchors), {});
    var lv := FirstOccurrences(AttrValues("href", page.links), anchors.tracked);
    assert anchors.values == av by { assert [] + av == av; }
    assert links.values == lv by { assert [] + lv == lv; }
    TrackedIsCollected(anchors.values, AttrValues("href", page.anchors), {});
    TrackedIsCollected(links.values, AttrValues("href", page.links), anchors.tracked);
    assert anchors.tracked == Elems(anchors.values);
    assert links.tracked == Elems(anchors.values) + Elems(links.values);
    Page(page.url, anchors.values, links.values, scripts.values)
  }

  lemma TrackedIsCollected(values: seq<string>, vs: seq<string>, seen: set<string>)
    requires values == [] + FirstOccurrences(vs, seen)
    ensures seen + Elems(vs) == seen + Elems(values)
  {
    FirstOccurrencesSpec(vs, seen);
  }

  /**
   * Each list holds exactly the values of its category not claimed by an
   * earlier category, so the three lists never share a value.
   */
  lemma MapCategories(page: Parser.TokenizedPage)
    ensures var r := Map(page);
      && Elems(r.anchors) == Elems(AttrValues("href", page.anchors))
      && Elems(r.links) == Elems(AttrValues("href", page.links)) - Elems(r.anchors)
      && Elems(r.scripts) == Elems(AttrValues("src", page.scripts)) - Elems(r.anchors) - Elems(r.links)
      && Elems(r.anchors) !! Elems(r.links)
      && Elems(r.anchors) !! Elems(r.scripts)
      && Elems(r.links) !! Elems(r.scripts)
  {
    var r := Map(page);
    FirstOccurrencesSpec(AttrValues("href", page.anchors), {});
    FirstOccurrencesSpec(AttrValues("href", page.links), Elems(r.anchors));
    FirstOccurrencesSpec(AttrValues("src", page.scripts), Elems(r.anchors) + Elems(r.links));
  }

  /** MapCollection: one mapped page per input page; every result has duplicate-free anchors. */
  function MapCollection(pages: seq<Parser.TokenizedPage>): (r: seq<Page>)
    ensures |r| == |pages|
    ensures forall i :: 0 <= i < |r| ==> r[i] == Map(pages[i])
    ensures forall i :: 0 <= i < |r| ==> r[i].url == pages[i].url && NoDup(r[i].anchors)
    decreases |pages|
  {
    if |pages| == 0 then [] else [Map(pages[0])] + MapCollection(pages[1..])
  }

  /**
   * Only the first `href` of a tag goes through the URL check, but the
   * mapper collects every `href` of a kept token: a second `href` is mapped
   * whatever the check would have said about it.
   */
  lemma SecondKeyBypassesFilter(cfg: ParserConfig.Config, url: Url, first: string, second: string)
    requires Filters.CheckUrl(cfg, first).Some?
    ensures var tag := Token(StartTagToken, "a", [Attribute("href", first), Attribute("href", second)]);
      second in Map(Parser.Parse(cfg, RawPage(url, [tag], 200))).anchors
  {
    var tag := Token(StartTagToken, "a", [Attribute("href", first), Attribute("href", second)]);
    var kept := Filters.ExcludeInvalidUrls(cfg, tag, "href").value;
    assert Filters.FindKey(tag.attrs, "href") == Some(0);
    assert kept.attrs == [Attribute("href", Filters.CheckUrl(cfg, first).value), Attribute("href", second)];
    Parser.ParseTokensSingle(cfg, tag);
    var page := Parser.Parse(cfg, RawPage(url, [tag], 200));
    var checked := Filters.CheckUrl(cfg, first).value;
    assert page.anchors == [kept];
    assert kept.attrs[1..] == [Attribute("href", second)] && kept.attrs[1..][1..] == [];
    assert KeyValues("href", kept.attrs[1..]) == [second];
    assert KeyValues("href", kept.attrs) == [checked, second];
    assert [kept][1..] == [];
    assert AttrValues("href", page.anchors) == [checked, second];
    FirstOccurrencesSpec(AttrValues("href", page.anchors), {});
  }

  /** An off-site URL that the check rejects is still mapped as the second `href` of an anchor. */
  lemma OffSiteSecondHrefMapped(cfg: ParserConfig.Config, url: Url)
    requires cfg.hostname == "example.com" && cfg.validHosts == {"www.example.com"}
    requires cfg.parseUrl("/ok") == Some(ParserConfig.ParsedUrl("", "/ok"))
    requires cfg.parseUrl("http://evil.com/") == Some(ParserConfig.ParsedUrl("evil.com", "/"))
    ensures Filters.CheckUrl(cfg, "http://evil.com/").None?
    ensures var tag := Token(StartTagToken, "a", [Attribute("href", "/ok"), Attribute("href", "http://evil.com/")]);
      "http://evil.com/" in Map(Parser.Parse(cfg, RawPage(url, [tag], 200))).anchors
  {
    Filters.RelativePathKept(cfg);
    Filters.OffSiteRejected(cfg);
    SecondKeyBypassesFilter(cfg, url, "/ok", "http://evil.com/");
  }
}

=== FILE: parser.dfy ===
/**
 * The parser package: sorting a page's start-tag tokens into anchors, links
 * and scripts, with the filters applied, and the collection step that drops
 * pages whose status is not 200.
 */
module Parser {
  import opened Wrappers
  import opened Html
  import opened Requester
  import opened ParserConfig
  import Filters
  import Counting

  datatype Category = Anchor | Link | Script

  /** A token kept by the filters, with the bucket it goes into. */
  datatype Asset = Asset(category: Category, token: Token)

  /** The three token lists, in document order. */
  datatype Assets = Assets(anchors: seq<Token>, links: seq<Token>, scripts: seq<Token>)

  /** A tokenized page: the fetched URL and its filtered asset tokens. */
  datatype TokenizedPage = TokenizedPage(url: Url, anchors: seq<Token>, links: seq<Token>, scripts: seq<Token>)

  /** The attribute whose value a category's tokens are checked on. */
  function KeyOf(tag: string): string {
    if tag == "script" then "src" else "href"
  }

  predicate IsAssetTag(tag: string) {
    tag == "a" || tag == "link" || tag == "script"
  }

  /** What ends up in the anchors list: start tags named `a`. */
  predicate AnchorToken(t: Token) {
    t.kind == StartTagToken && t.data == "a"
  }

  /** What ends up in the links list: non-canonical `link` start tags. */
  predicate LinkToken(t: Token) {
    t.kind == StartTagToken && t.data == "link" && !Filters.Canonical(t.attrs)
  }

  /** What ends up in the scripts list: `script` start tags with a src. */
  predicate ScriptToken(t: Token) {
    t.kind == StartTagToken && t.data == "script" && !Filters.MissingScriptSrc(t.attrs)
  }

  /** The token carries an attribute named `key`, the one the URL check looked at. */
  predicate HasKey(t: Token, key: string) {
    Filters.FindKey(t.attrs, key).Some?
  }

  /** The body of the tokenizer loop for one token that is not an ErrorToken. */
  function Classify(cfg: Config, t: Token): (r: Option<Asset>)
    ensures r.Some? <==>
      && t.kind == StartTagToken
      && IsAssetTag(t.data)
      && !(t.data == "link" && Filters.Canonical(t.attrs))
      && !(t.data == "script" && Filters.MissingScriptSrc(t.attrs))
      && Filters.ExcludeInvalidUrls(cfg, t, KeyOf(t.data)).Some?
    ensures r.Some? ==>
      && r.value.token == Filters.ExcludeInvalidUrls(cfg, t, KeyOf(t.data)).value
      && (r.value.category == Anchor <==> t.data == "a")
      && (r.value.category == Link <==> t.data == "link")
      && (r.value.category == Script <==> t.data == "script")
    ensures r.Some? && r.value.category == Anchor ==> AnchorToken(r.value.token) && HasKey(r.value.token, "href")
    ensures r.Some? && r.value.category == Link ==> LinkToken(r.value.token) && HasKey(r.value.token, "href")
    ensures r.Some? && r.value.category == Script ==> ScriptToken(r.value.token) && HasKey(r.value.token, "src")
  {
    if t.kind != StartTagToken then None
    else if t.data == "link" && Filters.Canonical(t.attrs) then None
    else if t.data == "a" || t.data == "link" then
      match Filters.ExcludeInvalidUrls(cfg, t, "href")
      case None => None
      case Some(kept) =>
        KeptTokenKeepsFilters(cfg, t, "href");
        Some(Asset(if t.data == "a" then Anchor else Link, kept))
    else if t.data == "script" then
      if Filters.MissingScriptSrc(t.attrs) then None
      else
        match Filters.ExcludeInvalidUrls(cfg, t, "src")
        case None => None
        case Some(kept) =>
          KeptTokenKeepsFilters(cfg, t, "src");
          Some(Asset(Script, kept))
    else None
  }

  /** Rewriting the checked href/src value leaves the rel and src tests unchanged. */
  lemma KeptTokenKeepsFilters(cfg: Config, t: Token, key: string)
    requires key == "href" || key == "src"
    requires Filters.ExcludeInvalidUrls(cfg, t, key).Some?
    ensures var kept := Filters.ExcludeInvalidUrls(cfg, t, key).value;
      && (Filters.Canonical(kept.attrs) <==> Filters.Canonical(t.attrs))
      && (Filters.MissingScriptSrc(kept.attrs) <==> Filters.MissingScriptSrc(t.attrs))
      && Filters.FindKey(kept.attrs, key) == Filters.FindKey(t.attrs, key)
  {
    var kept := Filters.ExcludeInvalidUrls(cfg, t, key).value;
    var i := Filters.FindKey(t.attrs, key).value;
    assert forall j :: 0 <= j < |t.attrs| ==> kept.attrs[j].key == t.attrs[j].key;
    if Filters.Canonical(kept.attrs) {
      var j :| 0 <= j < |kept.attrs| && kept.attrs[j].key == "rel" && kept.attrs[j].val == "canonical";
      assert j != i;
    }
    if Filters.Canonical(t.attrs) {
      var j :| 0 <= j < |t.attrs| && t.attrs[j].key == "rel" && t.attrs[j].val == "canonical";
      assert j != i;
      assert kept.attrs[j] == t.attrs[j];
    }
  }

  function Concat(a: Assets, b: Assets): Assets {
    Assets(a.anchors + b.anchors, a.links + b.links, a.scripts + b.scripts)
  }

  /** Every token of each list is of that list's kind. */
  predicate WellSorted(a: Assets) {
    && (forall i :: 0 <= i < |a.anchors| ==> AnchorToken(a.anchors[i]) && HasKey(a.anchors[i], "href"))
    && (forall i :: 0 <= i < |a.links| ==> LinkToken(a.links[i]) && HasKey(a.links[i], "href"))
    && (forall i :: 0 <= i < |a.scripts| ==> ScriptToken(a.scripts[i]) && HasKey(a.scripts[i], "src"))
  }

  predicate NoErrorToken(ts: seq<Token>) {
    forall i :: 0 <= i < |ts| ==> ts[i].kind != ErrorToken
  }

  /** Puts a kept token at the front of its list; an excluded token changes nothing. */
  function Prepend(c: Option<Asset>, rest: Assets): Assets {
    match c
    case None => rest
    case Some(Asset(Anchor, t)) => rest.(anchors := [t] + rest.anchors)
    case Some(Asset(Link, t)) => rest.(links := [t] + rest.links)
    case Some(Asset(Script, t)) => rest.(scripts := [t] + rest.scripts)
  }

  lemma PrependConcat(c: Option<Asset>, a: Assets, b: Assets)
    ensures Prepend(c, Concat(a, b)) == Concat(Prepend(c, a), b)
  {
    match c
    case None =>
    case Some(Asset(Anchor, t)) =>
      assert [t] + (a.anchors + b.anchors) == ([t] + a.anchors) + b.anchors;
    case Some(Asset(Link, t)) =>
      assert [t] + (a.links + b.links) == ([t] + a.links) + b.links;
    case Some(Asset(Script, t)) =>
      assert [t] + (a.scripts + b.scripts) == ([t] + a.scripts) + b.scripts;
  }

  /** The tokenizer loop: runs up to the first ErrorToken (end of input) and sorts the kept tokens. */
  function ParseTokens(cfg: Config, ts: seq<Token>): (r: Assets)
    ensures WellSorted(r)
    ensures |r.anchors| + |r.links| + |r.scripts| <= |ts|
    decreases |ts|
  {
    if |ts| == 0 || ts[0].kind == ErrorToken then Assets([], [], [])
    else
      var c := Classify(cfg, ts[0]);
      var rest := ParseTokens(cfg, ts[1..]);
      PrependKeepsSorted(c, rest);
      Prepend(c, rest)
  }

  /** A token that Classify keeps goes to the list whose kind it has. */
  lemma PrependKeepsSorted(c: Option<Asset>, rest: Assets)
    requires WellSorted(rest)
    requires c.Some? && c.value.category == Anchor ==> AnchorToken(c.value.token) && HasKey(c.value.token, "href")
    requires c.Some? && c.value.category == Link ==> LinkToken(c.value.token) && HasKey(c.value.token, "href")
    requires c.Some? && c.value.category == Script ==> ScriptToken(c.value.token) && HasKey(c.value.token, "src")
    ensures WellSorted(Prepend(c, rest))
    ensures var p := Prepend(c, rest);
      |p.anchors| + |p.links| + |p.scripts| == |rest.anchors| + |rest.links| + |rest.scripts| + (if c.Some? then 1 else 0)
  {
  }

  /** Parse: the page URL is copied unchanged and the body is sorted into the three lists. */
  function Parse(cfg: Config, page: RawPage): (r: TokenizedPage)
    ensures r.url == page.url
    ensures WellSorted(Assets(r.anchors, r.links, r.scripts))
    ensures |r.anchors| + |r.links| + |r.scripts| <= |page.body|
  {
    var a := ParseTokens(cfg, page.body);
    TokenizedPage(page.url, a.anchors, a.links, a.scripts)
  }

  /** Output keeps document order: parsing a concatenation concatenates the parses. */
  lemma {:induction false} ParseTokensAppend(cfg: Config, xs: seq<Token>, ys: seq<Token>)
    requires NoErrorToken(xs)
    ensures ParseTokens(cfg, xs + ys) == Concat(ParseTokens(cfg, xs), ParseTokens(cfg, ys))
    decreases |xs|
  {
    if |xs| == 0 {
      assert xs + ys == ys;
      var p := ParseTokens(cfg, ys);
      assert [] + p.anchors == p.anchors && [] + p.links == p.links && [] + p.scripts == p.scripts;
    } else {
      assert (xs + ys)[0] == xs[0];
      assert (xs + ys)[1..] == xs[1..] + ys;
      ParseTokensAppend(cfg, xs[1..], ys);
      PrependConcat(Classify(cfg, xs[0]), ParseTokens(cfg, xs[1..]), ParseTokens(cfg, ys));
    }
  }

  /** A single token that is not an ErrorToken contributes exactly what Classify decides for it. */
  lemma ParseTokensSingle(cfg: Config, t: Token)
    requires t.kind != ErrorToken
    ensures ParseTokens(cfg, [t]) == Prepend(Classify(cfg, t), Assets([], [], []))
  {
    assert [t][1..] == [];
  }

  /** Index of the first ErrorToken, where the tokenizer loop returns; |ts| when there is none. */
  function End(ts: seq<Token>): (k: nat)
    ensures k <= |ts|
    ensures forall j :: 0 <= j < k ==> ts[j].kind != ErrorToken
    ensures k < |ts| ==> ts[k].kind == ErrorToken
    decreases |ts|
  {
    if |ts| == 0 || ts[0].kind == ErrorToken then 0 else End(ts[1..]) + 1
  }

  /** The list of one category. */
  function Bucket(a: Assets, c: Category): seq<Token> {
    match c
    case Anchor => a.anchors
    case Link => a.links
    case Script => a.scripts
  }

  lemma BucketPrepend(c0: Option<Asset>, rest: Assets, c: Category, t: Token)
    ensures t in Bucket(Prepend(c0, rest), c) <==> c0 == Some(Asset(c, t)) || t in Bucket(rest, c)
  {
  }

  /**
   * A token is in a category's list exactly when some token before the
   * first ErrorToken is kept by Classify into that category as it.
   */
  lemma {:induction false} ParseTokensMembers(cfg: Config, ts: seq<Token>, c: Category, t: Token)
    ensures t in Bucket(ParseTokens(cfg, ts), c)
      <==> exists k :: 0 <= k < End(ts) && Classify(cfg, ts[k]) == Some(Asset(c, t))
    decreases |ts|
  {
    if |ts| > 0 && ts[0].kind != ErrorToken {
      var rest := ParseTokens(cfg, ts[1..]);
      ParseTokensMembers(cfg, ts[1..], c, t);
      BucketPrepend(Classify(cfg, ts[0]), rest, c, t);
      if t in Bucket(rest, c) {
        var j :| 0 <= j < End(ts[1..]) && Classify(cfg, ts[1..][j]) == Some(Asset(c, t));
        assert ts[j + 1] == ts[1..][j];
      }
      if exists k :: 0 <= k < End(ts) && Classify(cfg, ts[k]) == Some(Asset(c, t)) {
        var k :| 0 <= k < End(ts) && Classify(cfg, ts[k]) == Some(Asset(c, t));
        if k > 0 {
          assert ts[1..][k - 1] == ts[k];
        }
      }
    }
  }

  /** Parse keeps exactly the tokens Classify keeps, each in the list of its category. */
  lemma ParseMembers(cfg: Config, page: RawPage, c: Category, t: Token)
    ensures var r := Parse(cfg, page);
      t in Bucket(Assets(r.anchors, r.links, r.scripts), c) <==>
        exists k :: 0 <= k < End(page.body) && Classify(cfg, page.body[k]) == Some(Asset(c, t))
  {
    ParseTokensMembers(cfg, page.body, c, t);
  }

  /** Tokens after the first ErrorToken are never looked at. */
  lemma ParseStopsAtError(cfg: Config, xs: seq<Token>, e: Token, ys: seq<Token>)
    requires NoErrorToken(xs) && e.kind == ErrorToken
    ensures ParseTokens(cfg, xs + [e] + ys) == ParseTokens(cfg, xs)
  {
    assert xs + [e] + ys == xs + ([e] + ys);
    ParseTokensAppend(cfg, xs, [e] + ys);
    var p := ParseTokens(cfg, xs);
    assert p.anchors + [] == p.anchors && p.links + [] == p.links && p.scripts + [] == p.scripts;
  }

  /** A token that is neither a start tag nor an ErrorToken (text, end tag, self-closing tag, ...) changes nothing. */
  lemma ParseIgnoresOtherTokens(cfg: Config, xs: seq<Token>, t: Token, ys: seq<Token>)
    requires NoErrorToken(xs) && t.kind != ErrorToken && t.kind != StartTagToken
    ensures ParseTokens(cfg, xs + [t] + ys) == ParseTokens(cfg, xs + ys)
  {
    assert xs + [t] + ys == xs + ([t] + ys);
    ParseTokensAppend(cfg, xs, [t] + ys);
    ParseTokensAppend(cfg, xs, ys);
    assert ([t] + ys)[1..] == ys;
  }

  /** No canonical link and no inline script ever reaches the output. */
  lemma NoCanonicalLinksOrInlineScripts(cfg: Config, page: RawPage)
    ensures forall t :: t in Parse(cfg, page).links ==> !Filters.Canonical(t.attrs)
    ensures forall t :: t in Parse(cfg, page).scripts ==> !Filters.MissingScriptSrc(t.attrs)
  {
  }

  /** ParseCollection: the parses of exactly the status-200 pages, in input order. */
  function ParseCollection(cfg: Config, pages: seq<RawPage>): (r: seq<TokenizedPage>)
    ensures |r| <= |pages|
    ensures forall q :: q in r ==> exists p :: p in pages && p.status == 200 && q == Parse(cfg, p)
    ensures forall p :: p in pages && p.status == 200 ==> Parse(cfg, p) in r
    ensures |r| == CountOk(pages)
    ensures NoDup(RawUrls(pages)) ==> NoDup(TokenizedUrls(r))
    ensures forall q :: multiset(r)[q] == |OkParses(cfg, pages, q)|
    decreases |pages|
  {
    if |pages| == 0 then []
    else
      var rest := ParseCollection(cfg, pages[1..]);
      var r := if pages[0].status != 200 then rest else [Parse(cfg, pages[0])] + rest;
      CollectionStep(cfg, pages, rest, r);
      HeadUrlIsFresh(cfg, pages, rest);
      CollectionCount(cfg, pages, rest, r);
      r
  }

  /** The positions of the status-200 pages whose parse is `q`. */
  function OkParses(cfg: Config, pages: seq<RawPage>, q: TokenizedPage): set<nat> {
    Counting.Positions(pages, ParsesTo(cfg, q))
  }

  /** The test "a status-200 page whose parse is `q`". */
  function ParsesTo(cfg: Config, q: TokenizedPage): RawPage -> bool {
    (p: RawPage) => p.status == 200 && Parse(cfg, p) == q
  }

  lemma CollectionCount(cfg: Config, pages: seq<RawPage>, rest: seq<TokenizedPage>, r: seq<TokenizedPage>)
    requires |pages| > 0
    requires r == if pages[0].status != 200 then rest else [Parse(cfg, pages[0])] + rest
    requires forall q :: multiset(rest)[q] == |OkParses(cfg, pages[1..], q)|
    ensures forall q :: multiset(r)[q] == |OkParses(cfg, pages, q)|
  {
    forall q
      ensures multiset(r)[q] == |OkParses(cfg, pages, q)|
    {
      Counting.PositionsStep(pages, ParsesTo(cfg, q));
    }
  }

  /** One step of the collection: the head page is added exactly when its status is 200. */
  lemma CollectionStep(cfg: Config, pages: seq<RawPage>, rest: seq<TokenizedPage>, r: seq<TokenizedPage>)
    requires |pages| > 0
    requires r == if pages[0].status != 200 then rest else [Parse(cfg, pages[0])] + rest
    requires forall q :: q in rest ==> exists p :: p in pages[1..] && p.status == 200 && q == Parse(cfg, p)
    requires forall p :: p in pages[1..] && p.status == 200 ==> Parse(cfg, p) in rest
    ensures forall q :: q in r ==> exists p :: p in pages && p.status == 200 && q == Parse(cfg, p)
    ensures forall p :: p in pages && p.status == 200 ==> Parse(cfg, p) in r
  {
    assert pages == [pages[0]] + pages[1..];
  }

  lemma HeadUrlIsFresh(cfg: Config, pages: seq<RawPage>, rest: seq<TokenizedPage>)
    requires |pages| > 0
    requires forall q :: q in rest ==> exists p :: p in pages[1..] && p.status == 200 && q == Parse(cfg, p)
    requires NoDup(RawUrls(pages[1..])) ==> NoDup(TokenizedUrls(rest))
    ensures NoDup(RawUrls(pages)) ==> NoDup(TokenizedUrls([Parse(cfg, pages[0])] + rest))
  {
    if NoDup(RawUrls(pages)) {
      assert NoDup(RawUrls(pages[1..]));
      HeadUrlNotInRest(cfg, pages, rest);
      ConsDistinct(Parse(cfg, pages[0]), rest);
    }
  }

  lemma ConsDistinct(head: TokenizedPage, rest: seq<TokenizedPage>)
    requires NoDup(TokenizedUrls(rest))
    requires forall q :: q in rest ==> q.url != head.url
    ensures NoDup(TokenizedUrls([head] + rest))
  {
    var r := [head] + rest;
    forall i, k | 0 <= i < k < |r|
      ensures r[i].url != r[k].url
    {
      if i == 0 {
        assert r[k] == rest[k - 1] && r[k] in rest;
      } else {
        assert r[i] == rest[i - 1] && r[k] == rest[k - 1];
      }
    }
  }

  /** Every page parsed from the tail carries a URL other than the head's. */
  lemma HeadUrlNotInRest(cfg: Config, pages: seq<RawPage>, rest: seq<TokenizedPage>)
    requires |pages| > 0 && NoDup(RawUrls(pages))
    requires forall q :: q in rest ==> exists p :: p in pages[1..] && p.status == 200 && q == Parse(cfg, p)
    ensures forall q :: q in rest ==> q.url != pages[0].url
  {
    forall q | q in rest
      ensures q.url != pages[0].url
    {
      var p :| p in pages[1..] && p.status == 200 && q == Parse(cfg, p);
      var k :| 0 <= k < |pages[1..]| && pages[1..][k] == p;
      assert pages[k + 1] == p;
    }
  }

  function CountOk(pages: seq<RawPage>): nat
    decreases |pages|
  {
    if |pages| == 0 then 0 else (if pages[0].status == 200 then 1 else 0) + CountOk(pages[1..])
  }

  /** The URLs of tokenized pages, in order. */
  function TokenizedUrls(ps: seq<TokenizedPage>): (r: seq<Url>)
    ensures |r| == |ps| && forall i :: 0 <= i < |ps| ==> r[i] == ps[i].url
  {
    seq(|ps|, i requires 0 <= i < |ps| => ps[i].url)
  }
}

=== FILE: requester.dfy ===
/**
 * The HTTP collaborator. The network is a finite partial function from URL to
 * response: a URL that is not a key of the map is a transport error.
 */
module Requester {
  import opened Wrappers
  import opened Html

  type Url = string

  /** What the server answers for one URL: the (tokenized) body and the status code. */
  datatype Response = Response(body: seq<Token>, status: int)

  /** The reachable web: every URL that can be fetched without a transport error. */
  type Web = map<Url, Response>

  /** A fetched page: the requested URL echoed back, its body and its status. */
  datatype RawPage = RawPage(url: Url, body: seq<Token>, status: int)

  /** No value occurs twice. */
  predicate NoDup(s: seq<string>) {
    forall i, j :: 0 <= i < j < |s| ==> s[i] != s[j]
  }

  /** The URLs of fetched pages, in order. */
  function RawUrls(pages: seq<RawPage>): (r: seq<Url>)
    ensures |r| == |pages| && forall i :: 0 <= i < |pages| ==> r[i] == pages[i].url
  {
    seq(|pages|, i requires 0 <= i < |pages| => pages[i].url)
  }

  /** One GET request. The URL is echoed and the status passed through unchanged. */
  function Get(web: Web, url: Url): (r: Option<RawPage>)
    ensures r.Some? <==> url in web
    ensures r.Some? ==> r.value.url == url && r.value.status == web[url].status && r.value.body == web[url].body
  {
    if url in web then Some(RawPage(url, web[url].body, web[url].status)) else None
  }
}

=== FILE: scenarios.dfy ===
/**
 * The scenarios of the repository's tests, replayed against the model: the
 * mapper test page and the dot rendering test.
 */
module Scenarios {
  import opened Wrappers
  import opened Html
  import opened Requester
  import opened ParserConfig
  import Filters
  import Parser
  import Mapper
  import Formatter

  function StartTag(name: string, attrs: seq<Attribute>): Token {
    Token(StartTagToken, name, attrs)
  }

  function Href(v: string): seq<Attribute> { [Attribute("href", v)] }

  function Src(v: string): seq<Attribute> { [Attribute("src", v)] }

  /** One start tag `tag` per value, each carrying that value as its only attribute, named `key`. */
  function Singles(tag: string, key: string, vs: seq<string>): (ts: seq<Token>)
    ensures |ts| == |vs|
    ensures forall i :: 0 <= i < |vs| ==> ts[i].kind == StartTagToken
    decreases |vs|
  {
    if |vs| == 0 then [] else [StartTag(tag, [Attribute(key, vs[0])])] + Singles(tag, key, vs[1..])
  }

  /** The start tags of the mapper test page, in document order. */
  function TestBody(): seq<Token> {
    HeadTags() + FromLinks(LinkRefs, ScriptRefs, AnchorRefs)
  }

  /** The page from its first stylesheet on, from its first script on, and from its body tag on. */
  function FromLinks(lv: seq<string>, sv: seq<string>, av: seq<string>): seq<Token> {
    Singles("link", "href", lv) + FromScripts(sv, av)
  }
  function FromScripts(sv: seq<string>, av: seq<string>): seq<Token> {
    Singles("script", "src", sv) + FromBody(av)
  }
  function FromBody(av: seq<string>): seq<Token> {
    [StartTag("body", [])] + Singles("a", "href", av)
  }

  predicate AllRelative(vs: seq<string>) {
    forall i :: 0 <= i < |vs| ==> vs[i] in RelativeRefs
  }

  predicate AllRelative3(lv: seq<string>, sv: seq<string>, av: seq<string>) {
    AllRelative(lv) && AllRelative(sv) && AllRelative(av)
  }

  function HeadTags(): seq<Token> {
    [ StartTag("html", []),
      StartTag("head", []),
      StartTag("link", [Attribute("rel", "canonical"), Attribute("href", "http://www.example.com/")]) ]
  }

  const LinkRefs: seq<string> := ["foo.css", "foo.css", "bar.css", "baz.css"]
  const ScriptRefs: seq<string> := ["foo.js", "foo.js", "bar.js", "baz.js"]
  const AnchorRefs: seq<string> := ["/foo", "/foo", "/bar", "/baz"]

  /** The relative references of the test page, which net/url parses to an empty host and the value as path. */
  const RelativeRefs: seq<string> := ["foo.css", "bar.css", "baz.css", "foo.js", "bar.js", "baz.js", "/foo", "/bar", "/baz"]

  predicate TestConfig(cfg: Config) {
    && cfg.protocol == "http"
    && cfg.hostname == "example.com"
    && cfg.validHosts == SetValidHosts("example.com", "www")
    && forall i :: 0 <= i < |RelativeRefs| ==> cfg.parseUrl(RelativeRefs[i]) == Some(ParsedUrl("", RelativeRefs[i]))
  }

  lemma TestValidHosts()
    ensures SetValidHosts("example.com", "www") == {"www.example.com"}
  {
    Strings.SplitNoSep("www", ',');
    assert Strings.Split("www", ',') == ["www"];
    assert HostFor("www", "example.com") == "www.example.com";
  }

  /** Each image pattern holds one of d, i, p, g among its first two letters, and no test path does. */
  lemma NoImageIn(path: string)
    requires path in RelativeRefs
    ensures !Filters.MatchesImagePattern(path)
  {
    assert forall c :: c in path ==> c !in "dipg";
    forall k | 0 <= k < |Filters.ImagePatterns|
      ensures !Strings.Contains(path, Filters.ImagePatterns[k])
    {
      var pat := Filters.ImagePatterns[k];
      var j := if pat[0] in "dipg" then 0 else 1;
      assert pat[j] in "dipg";
      if Strings.Contains(path, pat) {
        Strings.ContainedCharsOccur(path, pat, j);
      }
    }
  }

  /** A relative reference of the test page is kept, rewritten to the absolute www URL. */
  lemma RelativeRefKept(cfg: Config, v: string)
    requires TestConfig(cfg) && v in RelativeRefs
    ensures Filters.CheckUrl(cfg, v) == Some(Abs(v))
  {
    TestValidHosts();
    NoImageIn(v);
    TestParsesRelative(cfg, v);
    assert "www." + "example.com" == "www.example.com";
    OwnPathKept(cfg, v);
    TestAbsolute(cfg, v);
  }

  lemma TestParsesRelative(cfg: Config, v: string)
    requires TestConfig(cfg) && v in RelativeRefs
    ensures cfg.parseUrl(v) == Some(ParsedUrl("", v))
  {
    var i :| 0 <= i < |RelativeRefs| && RelativeRefs[i] == v;
  }

  /** Under the test's protocol and hostname, the rewrite of a path to itself is the test's absolute form. */
  lemma TestAbsolute(cfg: Config, v: string)
    requires cfg.protocol == "http" && cfg.hostname == "example.com"
    ensures Filters.Absolute(cfg, v, v) == Abs(v)
  {
    assert Strings.StartsWith(v, "/") <==> |v| > 0 && v[0] == '/';
    assert "http" + "://" + "www." + "example.com" == "http://www.example.com";
  }

  /** A value the parser reads as a bare path on no host is kept when www.hostname is valid, made absolute. */
  lemma OwnPathKept(cfg: Config, v: string)
    requires cfg.parseUrl(v) == Some(ParsedUrl("", v))
    requires !Filters.MatchesImagePattern(v)
    requires "www." + cfg.hostname in cfg.validHosts
    ensures Filters.CheckUrl(cfg, v) == Some(Filters.Absolute(cfg, v, v))
  {
    assert Filters.EffectiveHost(cfg, "") == "www." + cfg.hostname;
  }

  /** The absolute form the test expects for a relative reference. */
  function Abs(v: string): string {
    "http://www.example.com" + (if |v| > 0 && v[0] == '/' then "" else "/") + v
  }

  function AbsAll(vs: seq<string>): (r: seq<string>)
    ensures |r| == |vs| && forall i :: 0 <= i < |vs| ==> r[i] == Abs(vs[i])
    decreases |vs|
  {
    if |vs| == 0 then [] else [Abs(vs[0])] + AbsAll(vs[1..])
  }

  /** The list a tag's tokens go into. */
  function CategoryOf(tag: string): Parser.Category {
    if tag == "a" then Parser.Anchor else if tag == "link" then Parser.Link else Parser.Script
  }

  /** The parse result holding `ts` in the list of `cat` and nothing else. */
  function Only(cat: Parser.Category, ts: seq<Token>): Parser.Assets {
    match cat
    case Anchor => Parser.Assets(ts, [], [])
    case Link => Parser.Assets([], ts, [])
    case Script => Parser.Assets([], [], ts)
  }

  /** A start tag with one relative reference is kept, its reference made absolute. */
  lemma ClassifyRelative(cfg: Config, tag: string, v: string)
    requires TestConfig(cfg) && v in RelativeRefs
    requires tag == "a" || tag == "link" || tag == "script"
    ensures var key := Parser.KeyOf(tag);
      Parser.Classify(cfg, StartTag(tag, [Attribute(key, v)]))
        == Some(Parser.Asset(CategoryOf(tag), StartTag(tag, [Attribute(key, Abs(v))])))
  {
    RelativeRefKept(cfg, v);
    var key := Parser.KeyOf(tag);
    var t := StartTag(tag, [Attribute(key, v)]);
    assert Filters.FindKey(t.attrs, key) == Some(0);
    assert !Filters.Canonical(t.attrs);
    assert !Filters.MissingScriptSrc(t.attrs) <==> key == "src";
    assert t.attrs[0 := Attribute(key, Abs(v))] == [Attribute(key, Abs(v))];
  }

  /** A run of single-attribute start tags, each kept and rewritten to `ws[i]`, parses to the rewritten run. */
  lemma {:induction false} ParseSingles(cfg: Config, tag: string, key: string, cat: Parser.Category, vs: seq<string>, ws: seq<string>)
    requires |vs| == |ws|
    requires forall i :: 0 <= i < |vs| ==> Kept(cfg, tag, key, cat, vs[i], ws[i])
    ensures Parser.ParseTokens(cfg, Singles(tag, key, vs)) == Only(cat, Singles(tag, key, ws))
    decreases |vs|
  {
    if |vs| > 0 {
      ParseSingles(cfg, tag, key, cat, vs[1..], ws[1..]);
      ParseSinglesStep(cfg, tag, key, cat, vs, ws);
    }
  }

  /** The start tag `tag` with the one attribute `key`=`v` is kept as category `cat`, rewritten to `w`. */
  predicate Kept(cfg: Config, tag: string, key: string, cat: Parser.Category, v: string, w: string) {
    Parser.Classify(cfg, StartTag(tag, [Attribute(key, v)])) == Some(Parser.Asset(cat, StartTag(tag, [Attribute(key, w)])))
  }

  lemma ParseSinglesStep(cfg: Config, tag: string, key: string, cat: Parser.Category, vs: seq<string>, ws: seq<string>)
    requires |vs| == |ws| > 0
    requires Kept(cfg, tag, key, cat, vs[0], ws[0])
    requires Parser.ParseTokens(cfg, Singles(tag, key, vs[1..])) == Only(cat, Singles(tag, key, ws[1..]))
    ensures Parser.ParseTokens(cfg, Singles(tag, key, vs)) == Only(cat, Singles(tag, key, ws))
  {
    assert Singles(tag, key, vs)[1..] == Singles(tag, key, vs[1..]);
  }

  /** A run of the test page's relative references parses to the run of their absolute forms. */
  lemma ParseRelativeRun(cfg: Config, tag: string, vs: seq<string>)
    requires TestConfig(cfg)
    requires tag == "a" || tag == "link" || tag == "script"
    requires AllRelative(vs)
    ensures Parser.NoErrorToken(Singles(tag, Parser.KeyOf(tag), vs))
    ensures Parser.ParseTokens(cfg, Singles(tag, Parser.KeyOf(tag), vs))
         == Only(CategoryOf(tag), Singles(tag, Parser.KeyOf(tag), AbsAll(vs)))
  {
    forall i | 0 <= i < |vs|
      ensures Kept(cfg, tag, Parser.KeyOf(tag), CategoryOf(tag), vs[i], AbsAll(vs)[i])
    {
      assert vs[i] in RelativeRefs;
      ClassifyRelative(cfg, tag, vs[i]);
    }
    ParseSingles(cfg, tag, Parser.KeyOf(tag), CategoryOf(tag), vs, AbsAll(vs));
    NoErrorInSingles(tag, Parser.KeyOf(tag), vs);
  }

  lemma NoErrorInSingles(tag: string, key: string, vs: seq<string>)
    ensures Parser.NoErrorToken(Singles(tag, key, vs))
  {
  }

  /** The expected mapped page of the mapper test. */
  function ExpectedTestPage(): Mapper.Page {
    Mapper.Page(
      "http://www.example.com",
      ["http://www.example.com/foo", "http://www.example.com/bar", "http://www.example.com/baz"],
      ["http://www.example.com/foo.css", "http://www.example.com/bar.css", "http://www.example.com/baz.css"],
      ["http://www.example.com/foo.js", "http://www.example.com/bar.js", "http://www.example.com/baz.js"])
  }

  /** The html and head tags and the canonical link contribute nothing to whatever follows them. */
  lemma ParseHeadTagsThen(cfg: Config, rest: seq<Token>)
    ensures Parser.ParseTokens(cfg, HeadTags() + rest) == Parser.ParseTokens(cfg, rest)
  {
    ParseHeadTags(cfg);
    ParseSkipsEmpty(cfg, HeadTags(), rest);
  }

  lemma ParseHeadTags(cfg: Config)
    ensures Parser.NoErrorToken(HeadTags())
    ensures Parser.ParseTokens(cfg, HeadTags()) == Parser.Assets([], [], [])
  {
    var h := HeadTags();
    assert Filters.Canonical(h[2].attrs);
    assert h[1..][1..] == h[2..];
    assert h[2..][1..] == [];
  }

  lemma ParseBodyTag(cfg: Config)
    ensures Parser.ParseTokens(cfg, [StartTag("body", [])]) == Parser.Assets([], [], [])
  {
    assert [StartTag("body", [])][1..] == [];
  }

  /** Tags that contribute nothing, in front of a run, leave the run's parse as it is. */
  lemma ParseSkipsEmpty(cfg: Config, head: seq<Token>, rest: seq<Token>)
    requires Parser.NoErrorToken(head) && Parser.ParseTokens(cfg, head) == Parser.Assets([], [], [])
    ensures Parser.ParseTokens(cfg, head + rest) == Parser.ParseTokens(cfg, rest)
  {
    Parser.ParseTokensAppend(cfg, head, rest);
    var p := Parser.ParseTokens(cfg, rest);
    assert [] + p.anchors == p.anchors && [] + p.links == p.links && [] + p.scripts == p.scripts;
  }

  /** A run that parses into one list only, in front of the rest, lands at the front of that list. */
  lemma ParseRunThenRest(cfg: Config, run: seq<Token>, rest: seq<Token>, cat: Parser.Category, out: seq<Token>)
    requires Parser.NoErrorToken(run) && Parser.ParseTokens(cfg, run) == Only(cat, out)
    ensures var p := Parser.ParseTokens(cfg, rest); var q := Parser.ParseTokens(cfg, run + rest);
      match cat
      case Anchor => q == p.(anchors := out + p.anchors)
      case Link => q == p.(links := out + p.links)
      case Script => q == p.(scripts := out + p.scripts)
  {
    Parser.ParseTokensAppend(cfg, run, rest);
    var p := Parser.ParseTokens(cfg, rest);
    assert [] + p.anchors == p.anchors && [] + p.links == p.links && [] + p.scripts == p.scripts;
  }

  lemma ParseFromBody(cfg: Config, av: seq<string>)
    requires TestConfig(cfg) && AllRelative(av)
    ensures Parser.ParseTokens(cfg, FromBody(av)) == Parser.Assets(Singles("a", "href", AbsAll(av)), [], [])
  {
    ParseRelativeRun(cfg, "a", av);
    ParseBodyTag(cfg);
    ParseSkipsEmpty(cfg, [StartTag("body", [])], Singles("a", "href", av));
  }

  lemma ParseFromScripts(cfg: Config, sv: seq<string>, av: seq<string>)
    requires TestConfig(cfg) && AllRelative(sv) && AllRelative(av)
    ensures Parser.ParseTokens(cfg, FromScripts(sv, av))
         == Parser.Assets(Singles("a", "href", AbsAll(av)), [], Singles("script", "src", AbsAll(sv)))
  {
    ParseFromBody(cfg, av);
    ParseRelativeRun(cfg, "script", sv);
    ParseRunThenRest(cfg, Singles("script", "src", sv), FromBody(av), Parser.Script, Singles("script", "src", AbsAll(sv)));
  }

  lemma ParseFromLinks(cfg: Config, lv: seq<string>, sv: seq<string>, av: seq<string>)
    requires TestConfig(cfg) && AllRelative3(lv, sv, av)
    ensures Parser.ParseTokens(cfg, FromLinks(lv, sv, av)) == Parser.Assets(
      Singles("a", "href", AbsAll(av)),
      Singles("link", "href", AbsAll(lv)),
      Singles("script", "src", AbsAll(sv)))
  {
    ParseFromScripts(cfg, sv, av);
    ParseRelativeRun(cfg, "link", lv);
    ParseRunThenRest(cfg, Singles("link", "href", lv), FromScripts(sv, av), Parser.Link, Singles("link", "href", AbsAll(lv)));
  }

  /** The parse of the test page: the canonical link and the structural tags are gone. */
  lemma ParseTestBody(cfg: Config)
    requires TestConfig(cfg)
    ensures Parser.ParseTokens(cfg, TestBody()) == Parser.Assets(
      Singles("a", "href", AbsAll(AnchorRefs)),
      Singles("link", "href", AbsAll(LinkRefs)),
      Singles("script", "src", AbsAll(ScriptRefs)))
  {
    RefsAreRelative();
    ParseFromLinks(cfg, LinkRefs, ScriptRefs, AnchorRefs);
    ParseHeadTagsThen(cfg, FromLinks(LinkRefs, ScriptRefs, AnchorRefs));
  }

  lemma RefsAreRelative()
    ensures AllRelative3(LinkRefs, ScriptRefs, AnchorRefs)
  {
  }

  /** Four references whose first two repeat collapse to three, whatever their text. */
  lemma DedupRepeatedFirst(a: string, b: string, c: string, seen: set<string>)
    requires a != b && b != c && a != c
    requires a !in seen && b !in seen && c !in seen
    ensures Mapper.FirstOccurrences([a, a, b, c], seen) == [a, b, c]
  {
    var vs := [a, a, b, c];
    assert vs[1..] == [a, b, c];
    assert [a, b, c][1..] == [b, c];
    assert [b, c][1..] == [c];
    assert [c][1..] == [];
    assert Mapper.FirstOccurrences([c], seen + {a, b}) == [c];
    assert Mapper.FirstOccurrences([b, c], seen + {a}) == [b, c] by {
      assert seen + {a} + {b} == seen + {a, b};
    }
    assert Mapper.FirstOccurrences([a, b, c], seen + {a}) == [b, c];
  }

  /** Map is determined by the three deduplications it performs. */
  lemma MapFromDedup(page: Parser.TokenizedPage, a: seq<string>, l: seq<string>, s: seq<string>)
    requires Mapper.FirstOccurrences(Mapper.AttrValues("href", page.anchors), {}) == a
    requires Mapper.FirstOccurrences(Mapper.AttrValues("href", page.links), Mapper.Elems(a)) == l
    requires Mapper.FirstOccurrences(Mapper.AttrValues("src", page.scripts), Mapper.Elems(a) + Mapper.Elems(l)) == s
    ensures Mapper.Map(page) == Mapper.Page(page.url, a, l, s)
  {
  }

  /**
   * The mapper test: the canonical link is dropped, the repeated foo
   * anchor, stylesheet and script collapse, and each list holds three
   * absolute URLs in document order.
   */
  lemma MapperTestScenario(cfg: Config)
    requires TestConfig(cfg)
    ensures Mapper.Map(Parser.Parse(cfg, RawPage("http://www.example.com", TestBody(), 200))) == ExpectedTestPage()
  {
    ParseTestBody(cfg);
    var e := ExpectedTestPage();
    var page := Parser.Parse(cfg, RawPage("http://www.example.com", TestBody(), 200));
    ExpectedAbsolute();
    AttrValuesOfSingles("a", "href", AbsAll(AnchorRefs));
    AttrValuesOfSingles("link", "href", AbsAll(LinkRefs));
    AttrValuesOfSingles("script", "src", AbsAll(ScriptRefs));
    ExpectedDedup();
    MapFromDedup(page, e.anchors, e.links, e.scripts);
  }

  /** The absolute forms of the test page's references, in document order. */
  lemma ExpectedAbsolute()
    ensures var e := ExpectedTestPage();
      && AbsAll(AnchorRefs) == [e.anchors[0]] + e.anchors
      && AbsAll(LinkRefs) == [e.links[0]] + e.links
      && AbsAll(ScriptRefs) == [e.scripts[0]] + e.scripts
  {
    AnchorsAbsolute();
    LinksAbsolute();
    ScriptsAbsolute();
  }

  lemma AnchorsAbsolute()
    ensures var e := ExpectedTestPage(); AbsAll(AnchorRefs) == [e.anchors[0]] + e.anchors
  {
    assert Abs("/foo") == "http://www.example.com/foo";
    assert Abs("/bar") == "http://www.example.com/bar";
    assert Abs("/baz") == "http://www.example.com/baz";
  }

  lemma LinksAbsolute()
    ensures var e := ExpectedTestPage(); AbsAll(LinkRefs) == [e.links[0]] + e.links
  {
    assert Abs("foo.css") == "http://www.example.com/foo.css";
    assert Abs("bar.css") == "http://www.example.com/bar.css";
    assert Abs("baz.css") == "http://www.example.com/baz.css";
  }

  lemma ScriptsAbsolute()
    ensures var e := ExpectedTestPage(); AbsAll(ScriptRefs) == [e.scripts[0]] + e.scripts
  {
    assert Abs("foo.js") == "http://www.example.com/foo.js";
    assert Abs("bar.js") == "http://www.example.com/bar.js";
    assert Abs("baz.js") == "http://www.example.com/baz.js";
  }

  /** Each category's repeated first value is dropped, and no value of one category recurs in a later one. */
  lemma ExpectedDedup()
    ensures var e := ExpectedTestPage();
      && Mapper.FirstOccurrences([e.anchors[0]] + e.anchors, {}) == e.anchors
      && Mapper.FirstOccurrences([e.links[0]] + e.links, Mapper.Elems(e.anchors)) == e.links
      && Mapper.FirstOccurrences([e.scripts[0]] + e.scripts, Mapper.Elems(e.anchors) + Mapper.Elems(e.links)) == e.scripts
  {
    ExpectedAnchorsDedup();
    ExpectedLinksDedup();
    ExpectedScriptsDedup();
  }

  lemma ExpectedAnchorsDedup()
    ensures var e := ExpectedTestPage(); Mapper.FirstOccurrences([e.anchors[0]] + e.anchors, {}) == e.anchors
  {
    DedupThree(ExpectedTestPage().anchors, {});
  }

  lemma ExpectedLinksDedup()
    ensures var e := ExpectedTestPage(); Mapper.FirstOccurrences([e.links[0]] + e.links, Mapper.Elems(e.anchors)) == e.links
  {
    var e := ExpectedTestPage();
    DedupThree(e.links, Mapper.Elems(e.anchors));
  }

  lemma ExpectedScriptsDedup()
    ensures var e := ExpectedTestPage();
      Mapper.FirstOccurrences([e.scripts[0]] + e.scripts, Mapper.Elems(e.anchors) + Mapper.Elems(e.links)) == e.scripts
  {
    var e := ExpectedTestPage();
    DedupThree(e.scripts, Mapper.Elems(e.anchors) + Mapper.Elems(e.links));
  }

  lemma DedupThree(vs: seq<string>, seen: set<string>)
    requires |vs| == 3 && vs[0] != vs[1] && vs[1] != vs[2] && vs[0] != vs[2]
    requires vs[0] !in seen && vs[1] !in seen && vs[2] !in seen
    ensures Mapper.FirstOccurrences([vs[0]] + vs, seen) == vs
  {
    assert [vs[0]] + vs == [vs[0], vs[0], vs[1], vs[2]];
    assert vs == [vs[0], vs[1], vs[2]];
    DedupRepeatedFirst(vs[0], vs[1], vs[2], seen);
  }

  lemma AttrValuesOfSingles(tag: string, key: string, vs: seq<string>)
    ensures Mapper.AttrValues(key, Singles(tag, key, vs)) == vs
    decreases |vs|
  {
    if |vs| > 0 {
      var ts := Singles(tag, key, vs);
      AttrValuesOfSingles(tag, key, vs[1..]);
      assert ts[1..] == Singles(tag, key, vs[1..]);
      assert Mapper.KeyValues(key, ts[0].attrs) == [vs[0]] + Mapper.KeyValues(key, ts[0].attrs[1..]);
      assert ts[0].attrs[1..] == [];
    }
  }

  /**
   * The dot test's page: the graph is the header, one block for the page
   * and the closing brace; the block lists its three anchors as quoted
   * lines with a comma after the first two only, and the stylesheets and
   * scripts do not appear.
   */
  lemma DotTestScenario()
    ensures var p := ExpectedTestPage().(url := "http://www.example.com/");
      && Formatter.Dot([p]) == Formatter.Header + Formatter.Block(p) + "\n}"
      && Formatter.Block(p) == "\n  \"" + p.url + "\"\n    -> {" + Formatter.Entries(p.anchors, 0) + "\n    }"
      && Formatter.Entries(p.anchors, 0)
           == (Formatter.Quote("http://www.example.com/foo") + ",")
            + ((Formatter.Quote("http://www.example.com/bar") + ",")
            + Formatter.Quote("http://www.example.com/baz"))
  {
    var p := ExpectedTestPage().(url := "http://www.example.com/");
    assert Formatter.Blocks([p]) == Formatter.Block(p) + Formatter.Blocks([]) by {
      assert [p][1..] == [];
    }
    assert Formatter.Block(p) + "" == Formatter.Block(p);
    EntriesOfThree(p.anchors);
  }

  /** Three anchors: a comma after the first and the second, none after the third. */
  lemma EntriesOfThree(a: seq<string>)
    requires |a| == 3
    ensures Formatter.Entries(a, 0) == (Formatter.Quote(a[0]) + ",") + ((Formatter.Quote(a[1]) + ",") + Formatter.Quote(a[2]))
  {
    assert Formatter.Entries(a, 3) == "";
    assert Formatter.Entries(a, 2) == Formatter.Quote(a[2]) by {
      assert Formatter.Quote(a[2]) + "" + "" == Formatter.Quote(a[2]);
    }
  }
}

=== FILE: strings.dfy ===
/**
 * The string operations the crawler borrows from Go's `strings` package and
 * from its unanchored image regexp, each paired with an independent
 * characterisation.
 */
module Strings {

  /** `pre` is a prefix of `s` (strings.HasPrefix). */
  predicate StartsWith(s: string, pre: string) {
    |pre| <= |s| && s[..|pre|] == pre
  }

  /** `pat` occurs somewhere in `s`; scanned from the left as an unanchored match does. */
  predicate Contains(s: string, pat: string)
    decreases |s|
  {
    StartsWith(s, pat) || (|s| > 0 && Contains(s[1..], pat))
  }

  /** `pat` occurs in `s` starting at index `i`. */
  ghost predicate OccursAt(s: string, pat: string, i: int) {
    0 <= i && i + |pat| <= |s| && s[i..i + |pat|] == pat
  }

  /** The scanning test agrees with the positional definition of a substring. */
  lemma {:induction false} ContainsIffOccurs(s: string, pat: string)
    ensures Contains(s, pat) <==> exists i :: OccursAt(s, pat, i)
    decreases |s|
  {
    if StartsWith(s, pat) {
      assert OccursAt(s, pat, 0);
    } else if |s| > 0 {
      ContainsIffOccurs(s[1..], pat);
      if exists i :: OccursAt(s[1..], pat, i) {
        var i :| OccursAt(s[1..], pat, i);
        assert s[i + 1..i + 1 + |pat|] == s[1..][i..i + |pat|];
        assert OccursAt(s, pat, i + 1);
      }
      if exists i :: OccursAt(s, pat, i) {
        var i :| OccursAt(s, pat, i) && i != 0;
        assert s[1..][i - 1..i - 1 + |pat|] == s[i..i + |pat|];
        assert OccursAt(s[1..], pat, i - 1);
      }
    }
  }

  lemma {:induction false} ShortNeverContains(s: string, pat: string)
    requires |s| < |pat|
    ensures !Contains(s, pat)
    decreases |s|
  {
    if |s| > 0 {
      ShortNeverContains(s[1..], pat);
    }
  }

  /** Every character of a contained pattern occurs in the string. */
  lemma ContainedCharsOccur(s: string, pat: string, k: int)
    requires Contains(s, pat) && 0 <= k < |pat|
    ensures pat[k] in s
  {
    ContainsIffOccurs(s, pat);
    var i :| OccursAt(s, pat, i);
    assert s[i + k] == s[i..i + |pat|][k];
  }

  /** Putting a "/" in front of a path neither creates nor hides a pattern that does not start with "/". */
  lemma SlashPrefixKeepsMatches(path: string, pat: string)
    requires |pat| > 0 && pat[0] != '/'
    ensures Contains("/" + path, pat) <==> Contains(path, pat)
  {
    assert ("/" + path)[1..] == path;
  }

  /** Number of occurrences of `c` in `s`. */
  function CountChar(s: string, c: char): nat
    decreases |s|
  {
    if |s| == 0 then 0 else (if s[0] == c then 1 else 0) + CountChar(s[1..], c)
  }

  lemma {:induction false} CountCharAppend(a: string, b: string, c: char)
    ensures CountChar(a + b, c) == CountChar(a, c) + CountChar(b, c)
    decreases |a|
  {
    if |a| > 0 {
      assert (a + b)[1..] == a[1..] + b;
      CountCharAppend(a[1..], b, c);
    } else {
      assert a + b == b;
    }
  }

  lemma {:induction false} CountCharAbsent(s: string, c: char)
    requires c !in s
    ensures CountChar(s, c) == 0
    decreases |s|
  {
    if |s| > 0 {
      CountCharAbsent(s[1..], c);
    }
  }

  /**
   * strings.Split with a one-character separator: the pieces between
   * separators, so n separators give n + 1 pieces and "" gives [""].
   */
  function Split(s: string, sep: char): (parts: seq<string>)
    ensures |parts| == CountChar(s, sep) + 1
    ensures forall i :: 0 <= i < |parts| ==> sep !in parts[i]
    decreases |s|
  {
    if |s| == 0 then [""]
    else
      var rest := Split(s[1..], sep);
      if s[0] == sep then [""] + rest
      else [[s[0]] + rest[0]] + rest[1..]
  }

  /** strings.Join with a one-character separator. */
  function Join(parts: seq<string>, sep: char): string
    decreases |parts|
  {
    if |parts| == 0 then ""
    else if |parts| == 1 then parts[0]
    else parts[0] + [sep] + Join(parts[1..], sep)
  }

  /** Joining the pieces of a split restores the original string. */
  lemma {:induction false} JoinSplit(s: string, sep: char)
    ensures Join(Split(s, sep), sep) == s
    decreases |s|
  {
    if |s| > 0 {
      var rest := Split(s[1..], sep);
      JoinSplit(s[1..], sep);
      if s[0] == sep {
        assert ([""] + rest)[1..] == rest;
        assert s == [sep] + s[1..];
      } else {
        var parts := [[s[0]] + rest[0]] + rest[1..];
        if |rest| == 1 {
          assert s == [s[0]] + s[1..];
        } else {
          assert parts[1..] == rest[1..];
          assert Join(rest, sep) == rest[0] + [sep] + Join(rest[1..], sep);
          assert s == [s[0]] + s[1..];
        }
      }
    }
  }

  lemma {:induction false} SplitNoSep(p: string, sep: char)
    requires sep !in p
    ensures Split(p, sep) == [p]
    decreases |p|
  {
    if |p| > 0 {
      SplitNoSep(p[1..], sep);
      assert [p[0]] + p[1..] == p;
    }
  }

  lemma {:induction false} SplitAfterPiece(p: string, sep: char, rest: string)
    requires sep !in p
    ensures Split(p + [sep] + rest, sep) == [p] + Split(rest, sep)
    decreases |p|
  {
    var s := p + [sep] + rest;
    if |p| == 0 {
      assert s == [sep] + rest;
      assert s[1..] == rest;
    } else {
      assert s[1..] == p[1..] + [sep] + rest;
      SplitAfterPiece(p[1..], sep, rest);
      assert [p[0]] + p[1..] == p;
    }
  }

  /** Splitting a join of separator-free pieces gives the pieces back. */
  lemma {:induction false} SplitJoin(parts: seq<string>, sep: char)
    requires |parts| >= 1
    requires forall i :: 0 <= i < |parts| ==> sep !in parts[i]
    ensures Split(Join(parts, sep), sep) == parts
    decreases |parts|
  {
    if |parts| == 1 {
      SplitNoSep(parts[0], sep);
    } else {
      SplitJoin(parts[1..], sep);
      SplitAfterPiece(parts[0], sep, Join(parts[1..], sep));
      assert [parts[0]] + parts[1..] == parts;
    }
  }

  /** A join of separator-free pieces holds exactly one separator between neighbours. */
  lemma {:induction false} JoinSeparatorCount(parts: seq<string>, sep: char)
    requires |parts| >= 1
    requires forall i :: 0 <= i < |parts| ==> sep !in parts[i]
    ensures CountChar(Join(parts, sep), sep) == |parts| - 1
    decreases |parts|
  {
    CountCharAbsent(parts[0], sep);
    if |parts| > 1 {
      JoinSeparatorCount(parts[1..], sep);
      CountCharAppend(parts[0] + [sep], Join(parts[1..], sep), sep);
      CountCharAppend(parts[0], [sep], sep);
    }
  }
}

=== FILE: wrappers.dfy ===
/** Failure-carrying result types shared by every module of the crawler model. */
module Wrappers {

  /** A value that may be absent: a Go `(T, ok)` pair or a nilable result. */
  datatype Option<+T> = None | Some(value: T)

  /** Either a value or an error, standing in for Go's `(T, error)` returns. */
  datatype Result<+T, +E> = Success(value: T) | Failure(error: E)
}
